=== FILE: README.md ===
# labbox-ephys state logic in Dafny

This project models the deterministic state logic of labbox-ephys, a web
and Jupyter front end for viewing spike-sorting results of
electrophysiology recordings, and proves properties about it:

- **Curation** (`curation.dfy`). The sorting-curation reducer of
  `src/extensions/extensionInterface.ts`:
  - labels per unit, kept sorted;
  - merge groups of units, simplified after every merge or unmerge;
  - `mergeGroupForUnitId`.

  `simplifyMergeGroups` has two forms:
  - a method over an array, changed in place by the source's
    `while`/`for`/`for` loops;
  - the functions `InnerPass`/`OuterPass`/`Fix` it is proved equal to.
- **Selection** (`selection.dfy`). The recording-selection and
  sorting-selection reducers:
  - the `UnitClicked` toggle;
  - the `AnimateRecording` step, with the wall clock as a parameter `now`.
- **Plugins** (`plugins.dfy`). `filterObject` as a loop over the keys of a
  dictionary, and `filterPlugins`.
- **Units** (`units.dfy`). From `src/pluginComponents/Units/Units.tsx`:
  - the `updateMetricData` reducer;
  - the label options offered for curation;
  - the 30-row truncation of the units table.
- **CrossCorrelogramsTsx** and **CrossCorrelogramsJs**
  (`crosscorrelograms_tsx.dfy`, `crosscorrelograms_js.dfy`). The two
  cross-correlogram views:
  - the units chosen for plotting;
  - the `n * n` grid of unit pairs, which the two views list transposed;
  - the whole-pixel plot width;
  - the row slicing at `rowBounds`.

  **Grid** (`grid.dfy`) holds what the two views share.
- **IndividualUnits** (`individual_units.dfy`). The selected-unit list of the
  individual-units view, cut to `maxUnitsVisible`, and its "Show more"
  button.
- **ElectrodeGeometry** (`electrode_geometry.dfy`). `zipElectrodes` of the
  Jupyter electrode-geometry view, with its count-mismatch error.
- **Kachery** (`kachery.dfy`). From `src/kachery/index.ts`:
  - `feedIdFromUri`;
  - `getPathQuery`;
  - the routing that `appendMessages` decides before it posts.

Four helper modules model the JavaScript built-ins this code relies on:

- `JsValues`: optional and nullable properties, thrown errors.
- `Seqs`: `filter`, `slice`, `new Set`.
- `Strings`:
  - the default string order;
  - a sort by a string key;
  - `toUpperCase` on ASCII;
  - `split` and `startsWith`.
- `Decimal`: `n + ''` and `parseInt`.

Behaviours the model reproduces as the code has them:

- `union` sorts numbers by their decimal strings (`[10, 9]` stays `[10, 9]`).
- The group read once before the inner loop of `simplifyMergeGroups` can lose
  a unit. `Curation.StaleGroupLosesMember` shows the input.
- `SetCurrentTimepoint` with `0` makes the time point undefined.
- `SetRecordingSelection`, routed through the sorting reducer, drops the
  selected units.

## Model

| member | source | states |
|---|---|---|
| Curation.Intersection | src/extensions/extensionInterface.ts:103-105 | a unit is in the result exactly when it is in both groups |
| Curation.Union | src/extensions/extensionInterface.ts:106-108 | a unit is in the union exactly when it is in either group; the result is a permutation of `a` followed by the units of `b` that `a` lacks, ordered by the units' decimal strings |
| Curation.UnionSortsAsStrings | src/extensions/extensionInterface.ts:107 | `union([10], [9])` is `[10, 9]`: numbers are sorted as strings |
| Curation.UnionOneTwoThree | src/extensions/extensionInterface.ts:106-108 | `union([1, 2], [2, 3])` is `[1, 2, 3]` |
| Curation.HitStep | src/extensions/extensionInterface.ts:119-123 | a union at `j` empties group `j`, which was non-empty because it shares a unit with the group read at line 116; one non-empty group fewer; group `i` keeps every unit of that group |
| Curation.HitWithin | src/extensions/extensionInterface.ts:119-123 | a union at `j` brings in no unit that was not in some group |
| Curation.HitDecreases | src/extensions/extensionInterface.ts:119-123 | an inner loop that finds a shared unit ends with fewer non-empty groups |
| Curation.InnerPass | src/extensions/extensionInterface.ts:117-124 | the inner loop keeps the number of groups and never raises the count of non-empty groups; `somethingChanged` ends true exactly when it was true before or the count dropped; a loop that leaves the count unchanged leaves the groups unchanged |
| Curation.OuterPass | src/extensions/extensionInterface.ts:115-125 | the same four facts for one pass of the `for i` loop |
| Curation.InnerPassWithin | src/extensions/extensionInterface.ts:117-124 | the inner loop adds no unit that was not in some group |
| Curation.InnerPassDisjoint | src/extensions/extensionInterface.ts:117-124 | an inner loop that changes nothing found the group read at line 116 disjoint from every later group |
| Curation.DisjointIntersection | src/extensions/extensionInterface.ts:103-105 | groups with no unit in common have an empty intersection |
| Curation.InnerPassDisjointId | src/extensions/extensionInterface.ts:117-124 | an inner loop over groups that the group read at line 116 does not meet changes nothing and leaves the flag as it was |
| Curation.OuterPassWithin | src/extensions/extensionInterface.ts:115-125 | a pass adds no unit that was not in some group |
| Curation.OuterPassDisjoint | src/extensions/extensionInterface.ts:115-125 | a pass that changes nothing found the groups pairwise disjoint |
| Curation.OuterPassDisjointId | src/extensions/extensionInterface.ts:115-125 | conversely, a pass over pairwise disjoint groups changes nothing |
| Curation.FixDisjointId | src/extensions/extensionInterface.ts:113-126 | pairwise disjoint groups leave the `while` loop unchanged after one pass |
| Curation.FixProperties | src/extensions/extensionInterface.ts:113-126 | the `while (somethingChanged)` loop terminates, because each changing pass lowers the count of non-empty groups; its result is pairwise disjoint and holds only units of the input |
| Curation.FilterGroupsDisjoint | src/extensions/extensionInterface.ts:127 | dropping groups of length below two keeps the groups pairwise disjoint |
| Curation.FilterGroupsWithin | src/extensions/extensionInterface.ts:127 | dropping groups adds no unit |
| Curation.Simplified | src/extensions/extensionInterface.ts:110-128 | every group returned has length at least two; the groups are pairwise disjoint; every unit returned was in some input group; groups that are already pairwise disjoint only lose those shorter than two |
| Curation.SimplifiedIdempotent | src/extensions/extensionInterface.ts:110-128 | simplifying simplified groups changes nothing |
| Curation.SimplifyMergeGroups | src/extensions/extensionInterface.ts:110-128 | the in-place loops over a copy of the groups return `Simplified(mg)`; hence groups of length at least two, pairwise disjoint, holding only input units |
| Curation.UnitePass | src/extensions/extensionInterface.ts:114-125 | one pass over the array leaves the array and flag that `OuterPass` computes from its old contents |
| Curation.UniteWithLaterGroups | src/extensions/extensionInterface.ts:116-124 | the inner loop, with the group read once before it, leaves the array and flag that `InnerPass` computes from its old contents |
| Curation.StaleSimplified | src/extensions/extensionInterface.ts:113-127 | for any union operation, `[[1, 2], [2, 3], [1, 4]]` simplifies to the single group `[1, 2] ∪ [1, 4]`, which lacks unit 3 |
| Curation.StaleGroupLosesMember | src/extensions/extensionInterface.ts:116-120 | with the source's `union`, unit 3 is in the input `[[1, 2], [2, 3], [1, 4]]` and in no group of its simplification |
| Curation.SingleGroupSimplified | src/extensions/extensionInterface.ts:110-128 | `[[1, 2]]` is already simplified |
| Curation.TwoGroupsSimplified | src/extensions/extensionInterface.ts:110-128 | `[[1, 2], [2, 3]]` simplifies to `[[1, 2, 3]]` |
| Curation.MergeGroupForUnitId | src/extensions/extensionInterface.ts:130-133 | `null` exactly when no merge group holds the unit; otherwise the first group that holds it |
| Curation.WithoutUnits | src/extensions/extensionInterface.ts:177 | a unit stays in the group exactly when it is not listed |
| Curation.AddLabelTo | src/extensions/extensionInterface.ts:140-153 | the unit then carries the label; a missing label is added once and the unit's list is sorted; an existing label leaves the state identical; other units' lists, the merge groups and the label choices are unchanged |
| Curation.FilterSorted | src/extensions/extensionInterface.ts:162 | the `filter` of a sorted list is sorted |
| Curation.RemoveLabelFrom | src/extensions/extensionInterface.ts:154-167 | no occurrence of the label is left on the unit; its other labels keep their counts; a sorted list stays sorted; an absent label leaves the state identical; nothing else changes |
| Curation.MergeUnitsInto | src/extensions/extensionInterface.ts:168-173 | labels are kept; the new groups are valid and hold only units grouped before or listed |
| Curation.StrippedDisjoint | src/extensions/extensionInterface.ts:177 | removing the listed units from disjoint groups leaves them disjoint |
| Curation.UnmergeUnitsFrom | src/extensions/extensionInterface.ts:174-179 | labels are kept; the new groups are valid and none holds a listed unit; from disjoint groups, each group keeps its other units in order and only groups left shorter than two are dropped |
| Curation.SortingCurationReducer | src/extensions/extensionInterface.ts:136-181 | `SetCuration` replaces the state; label actions leave the merge groups alone; merge actions leave the labels alone and always yield valid merge groups |
| Curation.MergeUnitsGroups | src/extensions/extensionInterface.ts:168-173 | `MergeUnits` stores the simplification of the old groups followed by the listed units |
| Curation.AddLabelOtherUnit | src/extensions/extensionInterface.ts:141-148 | labelling one unit never changes another unit's labels, because distinct ids have distinct `unitId + ''` keys |
| Curation.AddLabelIdempotent | src/extensions/extensionInterface.ts:140-153 | adding a label twice is the same as adding it once |
| Curation.AddThenRemoveLabel | src/extensions/extensionInterface.ts:140-167 | removing a label just added restores the unit's labels, up to order |
| Curation.MergeTwiceExample | src/extensions/extensionInterface.ts:168-173 | from no merge groups, `MergeUnits([1, 2])` then `MergeUnits([2, 3])` leaves exactly `[[1, 2, 3]]` |
| Curation.UnmergeExample | src/extensions/extensionInterface.ts:174-179 | from `[[1, 2, 3]]`, `UnmergeUnits([2])` leaves `[[1, 3]]` and `UnmergeUnits([1, 3])` then leaves no group |
| Selection.Round | src/extensions/extensionInterface.ts:335 | `Math.round(x)` lies within half a unit of `x` |
| Selection.RoundInteger | src/extensions/extensionInterface.ts:335 | rounding an integer gives it back |
| Selection.Animate | src/extensions/extensionInterface.ts:322-350 | when time has elapsed, the velocity is non-zero and a time point is set: the time point becomes the rounded `tp + v * elapsed / 1000`, the timestamp becomes `now`, and the other fields are kept; otherwise the state is returned unchanged |
| Selection.AnimateSameInstant | src/extensions/extensionInterface.ts:322-349 | a second step at the same instant changes nothing |
| Selection.AnimateWithinHalf | src/extensions/extensionInterface.ts:331-336 | an advancing step lands within half a time point of the exact position |
| Selection.AnimateExample | src/extensions/extensionInterface.ts:335 | time point 100 at 10 per second for 500 ms becomes 105 and the timestamp advances |
| Selection.RecordingSelectionReducer | src/extensions/extensionInterface.ts:278-352 | each action's new state: a field replaced, the whole selection replaced, `0` as the time point made undefined, the scale multiplied from the old scale, `1` when that is absent or `0`, the velocity stored with the time `now` |
| Selection.ZeroTimepointIsUndefined | src/extensions/extensionInterface.ts:288-292 | `SetCurrentTimepoint(0)` leaves no current time point |
| Selection.UnitClickedReducer | src/extensions/extensionInterface.ts:387-410 | a ctrl-click toggles exactly the clicked unit and keeps every other unit's membership; a plain click selects that unit alone; the recording fields and visible units are kept |
| Selection.CtrlClickTwice | src/extensions/extensionInterface.ts:389-401 | two ctrl-clicks on an unselected unit restore the original selection |
| Selection.DelegateToRecording | src/extensions/extensionInterface.ts:431-433 | the recording part changes as the recording reducer says; the unit fields are kept, except under `SetRecordingSelection`, which drops them |
| Selection.SortingSelectionReducer | src/extensions/extensionInterface.ts:412-434 | the unit setters replace their field; `UnitClicked` is the click reducer; every other action is delegated |
| Selection.SortingReducerDelegates | src/extensions/extensionInterface.ts:431-433 | a recording action changes the recording part exactly as the recording reducer would |
| Selection.SetRecordingSelectionDropsUnits | src/extensions/extensionInterface.ts:279-281 | re-setting the current recording selection through the sorting reducer forgets the selected and visible units |
| Plugins.Filtered | src/extensions/extensionInterface.ts:467-473 | a key is kept exactly when its value passes the filter, with its value unchanged |
| Plugins.FilteredIdempotent | src/extensions/extensionInterface.ts:467-473 | filtering again with the same filter changes nothing |
| Plugins.FilteredSubMap | src/extensions/extensionInterface.ts:467-473 | filtering adds no key and never grows the dictionary |
| Plugins.FilterObject | src/extensions/extensionInterface.ts:467-473 | the `for..in` loop, visiting keys in any order, builds exactly the filtered dictionary |
| Plugins.FilterPlugins | src/extensions/extensionInterface.ts:475-483 | each of the four registries is filtered by "not disabled and not in development" |
| Plugins.FilteredPluginsEnabled | src/extensions/extensionInterface.ts:476 | a registered plugin survives exactly when it is neither disabled nor in development |
| Units.UpdateMetricData | src/pluginComponents/Units/Units.tsx:40-54 | a completed metric is left as it was; otherwise its entry takes the new status, keeps data only when completed and an error only on `'error'`; no other entry changes |
| Units.UpdateKeepsWellFormed | src/pluginComponents/Units/Units.tsx:46-53 | every update keeps "data only when completed, error only on `'error'`" |
| Units.CompletedIsFinal | src/pluginComponents/Units/Units.tsx:42-45 | a completed metric stays exactly as it was after any sequence of actions |
| Units.UpdateAllWellFormed | src/pluginComponents/Units/Units.tsx:40-54 | every state reached by a sequence of updates keeps the invariant |
| Units.AllLabels | src/pluginComponents/Units/Units.tsx:79-84 | a label is collected exactly when some curated unit carries it |
| Units.LabelCompare | src/pluginComponents/Units/Units.tsx:86-96 | labels compare by their upper-case forms; labels equal up to case compare as -1 or 0, never 1 (line 94 repeats line 93) |
| Units.LabelCompareOrder | src/pluginComponents/Units/Units.tsx:89-95 | for labels that differ after upper-casing, -1 and 1 each hold in both directions of the upper-case order |
| Units.LabelOptions | src/pluginComponents/Units/Units.tsx:77-96 | a label is offered exactly when it is a default label or some curated unit carries it; each is offered once; the list is sorted by upper case |
| Units.LabelOptionsCompareOrder | src/pluginComponents/Units/Units.tsx:86-96 | no option compares as greater than a later one under the comparator the source sorts with |
| Units.DefaultsOffered | src/pluginComponents/Units/Units.tsx:12 | the five default labels are always offered |
| Units.VisibleUnits | src/pluginComponents/Units/Units.tsx:152-157 | unexpanded with more than 30 units: exactly the first 30 are shown and the expand button is set; otherwise all units, without the button |
| Grid.FlatMapLength | src/pluginComponents/CrossCorrelograms/CrossCorrelograms.tsx:41-46 | `m` blocks of `n` elements each give `m * n` elements |
| Grid.FlatMapBlock | src/pluginComponents/CrossCorrelograms/CrossCorrelograms.tsx:41-46 | block `i` of the result is `f(xs[i])`: row-major order |
| Grid.PlotWidth | src/pluginComponents/CrossCorrelograms/CrossCorrelograms.tsx:34 | the width is at most `maxSize`; `n` plots of that width and `n + 1` margins always fit into the view; below the cap, one more pixel per plot does not fit |
| Grid.PlotWidthMaximal | src/pluginComponents/CrossCorrelograms/CrossCorrelograms.js:30 | every width up to the result fits the view; every width between the result and the cap overflows it |
| Grid.RowBounds | src/pluginComponents/CrossCorrelograms/CrossCorrelograms.js:64 | an index is a row bound exactly when it is below the length and divisible by `n` (none when `n` is 0) |
| Grid.RowBoundsMultiples | src/pluginComponents/CrossCorrelograms/CrossCorrelograms.tsx:51 | for `m * n` pairs the row bounds are `0, n, ..., (m - 1) n`, in order |
| Grid.RowBoundsStep | src/pluginComponents/CrossCorrelograms/CrossCorrelograms.tsx:51 | one more row adds exactly its first index to the bounds |
| Grid.RowInteriorFails | src/pluginComponents/CrossCorrelograms/CrossCorrelograms.tsx:51 | no index inside a row is a bound |
| Grid.Rows | src/pluginComponents/CrossCorrelograms/CrossCorrelograms.tsx:101 | row `i` is the slice of the pairs from bound `i` for `n` pairs |
| Grid.SquareRows | src/pluginComponents/CrossCorrelograms/CrossCorrelograms.tsx:51-101 | `n * n` items cut at the bounds give `n` rows, row `i` holding items `i * n` to `i * n + n - 1` |
| CrossCorrelogramsTsx.ChosenPlots | src/pluginComponents/CrossCorrelograms/CrossCorrelograms.tsx:18-22 | every key that `parseInt` reads is chosen, and only such values, whatever its flag |
| CrossCorrelogramsTsx.ChosenPlotsOfIds | src/pluginComponents/CrossCorrelograms/CrossCorrelograms.tsx:19-21 | keys written from unit ids read back as those ids, in order |
| CrossCorrelogramsTsx.ComputeLayout | src/pluginComponents/CrossCorrelograms/CrossCorrelograms.tsx:26-36 | an empty choice is laid out as one plot, so nothing is divided by zero; the width never exceeds `maxSize`, the plots and their margins fit into the view, and below the cap one more pixel per plot would not fit |
| CrossCorrelogramsTsx.MakePairs | src/pluginComponents/CrossCorrelograms/CrossCorrelograms.tsx:40-47 | `n` chosen units give `n * n` pairs |
| CrossCorrelogramsTsx.MakePairsAt | src/pluginComponents/CrossCorrelograms/CrossCorrelograms.tsx:41-45 | pair `i * n + j` plots unit `j` against unit `i` |
| CrossCorrelogramsTsx.MakePairsIndex | src/pluginComponents/CrossCorrelograms/CrossCorrelograms.tsx:41-45 | pair `k` has `xkey = chosen[k % n]` and `ykey = chosen[k / n]` |
| CrossCorrelogramsTsx.PairRows | src/pluginComponents/CrossCorrelograms/CrossCorrelograms.tsx:51-101 | the rows are `n` rows of `n` pairs; row `i` plots every chosen unit against the `i`-th, so a row shares its `ykey` |
| CrossCorrelogramsTsx.Render | src/pluginComponents/CrossCorrelograms/CrossCorrelograms.tsx:49-105 | "No plot width" exactly when the width is 0; otherwise "First select" exactly when nothing is selected; otherwise the rows at `rowBounds` with that width |
| CrossCorrelogramsJs.ChosenPlots | src/pluginComponents/CrossCorrelograms/CrossCorrelograms.js:15-17 | exactly the unit ids that `isSelected` accepts, each as often as in `unit_ids` |
| CrossCorrelogramsJs.ChosenPlotsInOrder | src/pluginComponents/CrossCorrelograms/CrossCorrelograms.js:16 | the choice keeps the order of `unit_ids` |
| CrossCorrelogramsJs.ComputeLayout | src/pluginComponents/CrossCorrelograms/CrossCorrelograms.js:21-32 | `undefined` exactly when fewer than two plots are chosen; otherwise a width at most `maxSize` at which the plots and their margins fit into the view, and below the cap one more pixel per plot would not fit |
| CrossCorrelogramsJs.MakePairs | src/pluginComponents/CrossCorrelograms/CrossCorrelograms.js:36-42 | `n` chosen units give `n * n` pairs |
| CrossCorrelogramsJs.MakePairsAt | src/pluginComponents/CrossCorrelograms/CrossCorrelograms.js:37-41 | pair `i * n + j` plots unit `i` against unit `j` |
| CrossCorrelogramsJs.Transpose | src/pluginComponents/CrossCorrelograms/CrossCorrelograms.js:39 | swaps `xkey` and `ykey` |
| CrossCorrelogramsJs.TransposedAt | src/pluginComponents/CrossCorrelograms/CrossCorrelograms.js:36-42 | pair `i * n + j` is the `.tsx` pair at the same index with its units swapped |
| CrossCorrelogramsJs.PairsTransposed | src/pluginComponents/CrossCorrelograms/CrossCorrelograms.js:36-42 | both views list the same number of pairs, each the transpose of the `.tsx` pair at the same index |
| CrossCorrelogramsJs.PairRows | src/pluginComponents/CrossCorrelograms/CrossCorrelograms.js:62-118 | `n` rows of `n` pairs; row `i` plots the `i`-th chosen unit against every chosen unit, so a row shares its `xkey` |
| IndividualUnits.SelectedUnitIds | src/pluginComponents/IndividualUnits/IndividualUnits.tsx:19-22 | a unit is listed exactly when some truthy key reads as it and it is a unit of the sorting |
| IndividualUnits.SelectedUnitIdsInOrder | src/pluginComponents/IndividualUnits/IndividualUnits.tsx:19-22 | the ids come out in the order of their keys: the ids of two runs of keys are the ids of the first followed by those of the second |
| IndividualUnits.ShownUnits | src/pluginComponents/IndividualUnits/IndividualUnits.tsx:24-28 | the shown list is a prefix of the selected units, at most `maxUnitsVisible` long; the button is set exactly when units were cut; without the button every selected unit is shown |
| IndividualUnits.FooterOf | src/pluginComponents/IndividualUnits/IndividualUnits.tsx:64-73 | the "Show more" button exactly when units were cut; the placeholder exactly when there is no button and the list is empty |
| IndividualUnits.ShowMore | src/pluginComponents/IndividualUnits/IndividualUnits.tsx:67 | a click raises `maxUnitsVisible` |
| IndividualUnits.MaxAfterClicksValue | src/pluginComponents/IndividualUnits/IndividualUnits.tsx:15-16 | after `c` clicks `maxUnitsVisible` is `4 * (c + 1)` |
| IndividualUnits.ShowMoreExtends | src/pluginComponents/IndividualUnits/IndividualUnits.tsx:24-28 | a click keeps the shown units in place and shows the first `min(n, max + 4)` |
| IndividualUnits.ClicksShowAll | src/pluginComponents/IndividualUnits/IndividualUnits.tsx:24-28 | enough clicks show every selected unit and remove the button |
| ElectrodeGeometry.ZipElectrodes | jupyterlab/labbox_ephys_widgets_jp/src/extensions/electrodegeometry/electrodegeometry.tsx:8-14 | throws the count-mismatch error exactly when both arrays are present with different lengths; succeeds exactly when the ids are present and match the locations (or are empty without locations), and otherwise throws a `TypeError`; on success electrode `i` has the decimal label of `ids[i]` and the coordinates of `locations[i]` |
| ElectrodeGeometry.LabelsIdentifyChannels | jupyterlab/labbox_ephys_widgets_jp/src/extensions/electrodegeometry/electrodegeometry.tsx:12 | each label reads back as its channel id; two labels are equal exactly when their ids are |
| ElectrodeGeometry.Electrodes | jupyterlab/labbox_ephys_widgets_jp/src/extensions/electrodegeometry/electrodegeometry.tsx:18 | no recording info gives no electrodes; otherwise the zip of its locations and channel ids |
| Kachery.FeedIdFromUri | src/kachery/index.ts:3-9 | `null` exactly when the uri does not start with `feed://`; otherwise the text after `feed://` up to the next `/` or the end |
| Kachery.FeedIdOfRest | src/kachery/index.ts:7-8 | the id of `feed://` plus `rest` is the first `/`-separated piece of `rest` |
| Kachery.FeedIdRoundTrip | src/kachery/index.ts:3-9 | an id without `/` is read back from `feed://` plus the id |
| Kachery.FeedIdWithPath | src/kachery/index.ts:3-9 | the id is read back whatever path follows it |
| Kachery.GetPathQuery | src/kachery/index.ts:25-28 | empty exactly for a `null` feed or `default`; an `undefined` feed gives `?feed=` alone; otherwise `?feed=` followed by the uri |
| Kachery.GetPathQueryInjective | src/kachery/index.ts:25-28 | different non-default feeds get different queries, except that `undefined` and the empty uri share `?feed=` |
| Kachery.AppendRouteOf | src/kachery/index.ts:69-78 | a `sha1://` feed posts nothing; the route throws "Unable to get feedId from uri" exactly when the uri is not `default` and has no feed id or an empty one; a post always names a non-empty feed id; `default` posts to the feed `default`; any other uri posts to the id read from it |
| Kachery.AppendToFeedId | src/kachery/index.ts:75-78 | messages for `feed://id`, with or without a path, go to `id` |
| Kachery.AppendToEmptyFeedIdThrows | src/kachery/index.ts:76-77 | `feed://` alone names no feed, so appending to it throws |
| Strings.SortByKey | src/extensions/extensionInterface.ts:148 | JavaScript's sort: a permutation of its input, sorted by the key |
| Strings.Split | src/kachery/index.ts:7 | `split('/')` gives at least one piece, none holding the separator |
| Strings.JoinSplit | src/kachery/index.ts:7 | joining the pieces of a split gives back the string |
| Strings.SplitJoin | src/kachery/index.ts:7 | splitting pieces joined by a separator they lack gives back the pieces |
| Decimal.ParseIntToString | src/extensions/extensionInterface.ts:141 | `parseInt(n + '')` is `n` |
| Decimal.IntToStringInjective | src/extensions/extensionInterface.ts:141 | distinct unit ids have distinct `unitId + ''` keys |
| Seqs.Truncate | src/pluginComponents/Units/Units.tsx:152-157 | a prefix of the input, of length `limit` when the input is longer, otherwise the input; the flag is set exactly when something was cut |
| Seqs.Dedupe | src/pluginComponents/Units/Units.tsx:77 | `[...new Set(s)]` holds the same elements as `s`, each once |

## Left out

- Floating point. Time points, velocities, amplitude scales and coordinates are `real`. Widths are whole pixels. `NaN`, infinities and IEEE rounding are not modelled.
- The clock. `AnimateRecording` reads `new Date()` up to three times in one step; the model reads it once, as the parameter `now`.
- `useRecordingAnimation`, the React hook with a `while (true)` loop that sleeps 50 ms between steps: timing and concurrency. Only the step it dispatches is modelled.
- The calculation pool and the hither job broker. Their implementations are not part of this model, and they coordinate promises.
- The network calls of `src/kachery/index.ts`: `getNumMessages`, `getMessages`, `loadText`, `loadObject`, `loadBytes`, and the POST of `appendMessages`. Only the routing decided before the POST is modelled.
- The metric fetch path of `Units.tsx` (`fetchMetric` and the effect that starts remote jobs), and all JSX rendering.
- `Units.LabelOptions`: the order among labels equal up to case is not stated. It depends on the engine's sort algorithm, which the comparator's unreachable line 94 leaves unspecified.
- `Units.UpdateMetricData`: `data` is a value of any type. The model treats a falsy data value (`0`, `''`, `false`) like `null`, which it becomes at line 50.
- `Decimal.ParseInt`: reads an optional sign and decimal digits only. Leading whitespace, `0x` prefixes and fractional input are not modelled; the keys read here are written from integer unit ids.
- `Strings.Upper`: upper-cases ASCII letters only. Full Unicode case mapping is not modelled.
- `Strings.StrLess`: compares by character code. UTF-16 surrogate pairs are not distinguished.
- JavaScript objects used as dictionaries are `map`s:
  - `for..in` and `Object.keys` order is left free in `Plugins.FilterObject`;
  - everywhere else it is given as a sequence of entries.
- The random element ids (`Math.random`) and the `testHitherCalls` logging of `CrossCorrelograms.js`: randomness and I/O.
- The "More details" link of `IndividualUnits.tsx` (line 58) is left out, because it is rendering. Its query string is `Kachery.GetPathQuery`.
- `ScaleAmpScaleFactor` is a multiplication of `real`s, with no claim about floating-point rounding.

=== FILE: crosscorrelograms_js.dfy ===
/**
 * The older cross-correlogram view of
 * `src/pluginComponents/CrossCorrelograms/CrossCorrelograms.js`: the same
 * square grid of unit pairs, but built with `xkey` outer (row `i` plots the
 * `i`-th chosen unit against every chosen unit), a layout that gives no
 * width below two plots, and a cap of 800 pixels.
 */
module CrossCorrelogramsJs {
  import opened JsValues
  import opened Seqs
  import opened Grid
  import Tsx = CrossCorrelogramsTsx

  /** `plotMargin` (line 11), in pixels. */
  const PlotMargin: int := 2

  /** The default `maxSize` of `computeLayout` (line 21), in pixels. */
  const MaxSize: int := 800

  /**
   * `handleUpdateChosenPlots` (lines 15-17): the unit ids that `isSelected`
   * accepts, in the order of `unit_ids`.
   */
  function ChosenPlots(unitIds: seq<int>, isSelected: int -> bool): (r: seq<int>)
    ensures forall u :: u in r <==> u in unitIds && isSelected(u)
    ensures forall u :: multiset(r)[u] == if isSelected(u) then multiset(unitIds)[u] else 0
  {
    forall u ensures multiset(Filter(unitIds, isSelected))[u] == if isSelected(u) then multiset(unitIds)[u] else 0 {
      FilterMultiset(unitIds, isSelected, u);
    }
    Filter(unitIds, isSelected)
  }

  /**
   * The chosen ids keep their relative order: choosing from two lists one
   * after the other is choosing from their concatenation.
   */
  lemma ChosenPlotsInOrder(a: seq<int>, b: seq<int>, isSelected: int -> bool)
    ensures ChosenPlots(a + b, isSelected) == ChosenPlots(a, isSelected) + ChosenPlots(b, isSelected)
  {
    FilterAppend(a, b, isSelected);
  }

  /**
   * `computeLayout(marginInPx, maxSize)` (lines 21-32): `undefined` for fewer
   * than two chosen plots, otherwise the widest whole-pixel plot such that
   * `n` plots and `n + 1` margins fit into `width`, capped at `maxSize`.
   */
  function ComputeLayout(width: int, n: nat, marginInPx: int, maxSize: int): (w: Option<int>)
    ensures w.None? <==> n < 2
    ensures w.Some? ==> w.value <= maxSize && w.value == PlotWidth(width, marginInPx, n, maxSize)
    ensures w.Some? ==> w.value * n + marginInPx * (n + 1) <= width
    ensures w.Some? ==> w.value == maxSize || width < (w.value + 1) * n + marginInPx * (n + 1)
  {
    if n < 2 then None else Some(PlotWidth(width, marginInPx, n, maxSize))
  }

  /** `chosenPlots.map(yItem => ({xkey: xItem, ykey: yItem}))`. */
  function PairsWithX(chosen: seq<int>): int -> seq<Pair> {
    xItem => seq(|chosen|, i requires 0 <= i < |chosen| => Pair(xItem, chosen[i]))
  }

  /**
   * `makePairs()` (lines 36-42): for each chosen unit `xItem`, in order, the
   * pairs of it against every chosen unit.
   */
  function MakePairs(chosen: seq<int>): (pairs: seq<Pair>)
    ensures |pairs| == |chosen| * |chosen|
  {
    FlatMapLength(chosen, PairsWithX(chosen), |chosen|);
    FlatMap(chosen, PairsWithX(chosen))
  }

  /**
   * Row-major order with `xkey` outer: pair `j` of block `i` plots the
   * `i`-th chosen unit against the `j`-th.
   */
  lemma MakePairsAt(chosen: seq<int>, i: nat, j: nat)
    requires i < |chosen| && j < |chosen|
    ensures i * |chosen| + j < |MakePairs(chosen)|
    ensures MakePairs(chosen)[i * |chosen| + j] == Pair(chosen[i], chosen[j])
  {
    var n := |chosen|;
    var pairs := MakePairs(chosen);
    FlatMapBlock(chosen, PairsWithX(chosen), n, i);
    assert pairs[i * n..i * n + n][j] == pairs[i * n + j];
  }

  /** Swaps the two units of a pair. */
  function Transpose(p: Pair): (q: Pair)
    ensures q.xkey == p.ykey && q.ykey == p.xkey
  {
    Pair(p.ykey, p.xkey)
  }

  /**
   * The two versions of `makePairs` list the same grid transposed: each
   * pair of this one is the pair at the same index of the `.tsx` version
   * with its units swapped.
   */
  lemma PairsTransposed(chosen: seq<int>)
    ensures |MakePairs(chosen)| == |Tsx.MakePairs(chosen)|
    ensures forall k :: 0 <= k < |MakePairs(chosen)| ==>
      MakePairs(chosen)[k] == Transpose(Tsx.MakePairs(chosen)[k])
  {
    var n := |chosen|;
    forall k | 0 <= k < |MakePairs(chosen)|
      ensures MakePairs(chosen)[k] == Transpose(Tsx.MakePairs(chosen)[k])
    {
      var i, j := Decompose(k, n);
      TransposedAt(chosen, i, j);
    }
  }

  lemma TransposedAt(chosen: seq<int>, i: nat, j: nat)
    requires i < |chosen| && j < |chosen|
    ensures i * |chosen| + j < |MakePairs(chosen)|
    ensures MakePairs(chosen)[i * |chosen| + j] == Transpose(Tsx.MakePairs(chosen)[i * |chosen| + j])
  {
    var n := |chosen|;
    MakePairsAt(chosen, i, j);
    Tsx.MakePairsAt(chosen, i, j);
  }

  /**
   * The rows of the grid (lines 64 and 118): `n` rows of `n` pairs, row `i`
   * plotting the `i`-th chosen unit against every chosen unit, so that the
   * pairs of a row share their `xkey`.
   */
  lemma PairRows(chosen: seq<int>)
    ensures |Rows(MakePairs(chosen), RowBounds(|chosen| * |chosen|, |chosen|), |chosen|)| == |chosen|
    ensures forall i, j :: 0 <= i < |chosen| && 0 <= j < |chosen| ==>
      var row := Rows(MakePairs(chosen), RowBounds(|chosen| * |chosen|, |chosen|), |chosen|)[i];
      |row| == |chosen| && row[j] == Pair(chosen[i], chosen[j])
  {
    var n := |chosen|;
    var pairs := MakePairs(chosen);
    SquareRows(pairs, n);
    forall i | 0 <= i < n ensures Rows(pairs, Multiples(n, n), n)[i] == PairsWithX(chosen)(chosen[i]) {
      FlatMapBlock(chosen, PairsWithX(chosen), n, i);
    }
  }
}

=== FILE: crosscorrelograms_tsx.dfy ===
/**
 * The cross-correlogram view of
 * `src/pluginComponents/CrossCorrelograms/CrossCorrelograms.tsx`: the units
 * chosen for plotting, the `n * n` grid of unit pairs (row `i` plots every
 * chosen unit against the `i`-th one), the width of each plot and what the
 * view shows.
 */
module CrossCorrelogramsTsx {
  import opened JsValues
  import opened Seqs
  import opened Decimal
  import opened Grid

  /** `plotMargin` (line 14), in pixels. */
  const PlotMargin: int := 2

  /** The default `maxSize` of `computeLayout` (line 26), in pixels. */
  const MaxSize: int := 400

  /**
   * `handleUpdateChosenPlots` (lines 18-22): every key of `selectedUnitIds`
   * that `parseInt` reads as a number, in key order. The flags themselves are
   * not consulted: a unit whose flag is `false` is chosen as well.
   */
  function ChosenPlots(keys: seq<string>): (r: seq<int>)
    ensures |r| <= |keys|
    ensures forall k :: 0 <= k < |keys| && ParseInt(keys[k]).Some? ==> ParseInt(keys[k]).value in r
    ensures forall x :: x in r ==> exists k :: 0 <= k < |keys| && ParseInt(keys[k]) == Some(x)
  {
    if keys == [] then []
    else
      var rest := ChosenPlots(keys[1..]);
      assert forall k :: 1 <= k < |keys| ==> keys[k] == keys[1..][k - 1];
      match ParseInt(keys[0])
      case Some(v) => [v] + rest
      case None => rest
  }

  /** Keys written as `unitId + ''` read back as the unit ids, in order. */
  lemma {:induction false} ChosenPlotsOfIds(ids: seq<int>)
    ensures ChosenPlots(seq(|ids|, i requires 0 <= i < |ids| => IntToString(ids[i]))) == ids
  {
    var keys := seq(|ids|, i requires 0 <= i < |ids| => IntToString(ids[i]));
    if ids != [] {
      ParseIntToString(ids[0]);
      ChosenPlotsOfIds(ids[1..]);
      assert keys[1..] == seq(|ids[1..]|, i requires 0 <= i < |ids[1..]| => IntToString(ids[1..][i]));
      assert ids == [ids[0]] + ids[1..];
    }
  }

  /**
   * `computeLayout(marginInPx, maxSize)` (lines 26-36): `N = n || 1`, so an
   * empty choice is laid out as a single plot and nothing is divided by
   * zero.
   */
  function ComputeLayout(width: int, n: nat, marginInPx: int, maxSize: int): (w: int)
    ensures w <= maxSize
    ensures n >= 1 ==> w == PlotWidth(width, marginInPx, n, maxSize)
    ensures n == 0 ==> w == PlotWidth(width, marginInPx, 1, maxSize)
    ensures var N := if n == 0 then 1 else n;
      w * N + marginInPx * (N + 1) <= width &&
      (w == maxSize || width < (w + 1) * N + marginInPx * (N + 1))
  {
    var N := if n == 0 then 1 else n;
    PlotWidth(width, marginInPx, N, maxSize)
  }

  /** `chosenPlots.map(xItem => ({xkey: xItem, ykey: yItem}))`. */
  function PairsWithY(chosen: seq<int>): int -> seq<Pair> {
    yItem => seq(|chosen|, i requires 0 <= i < |chosen| => Pair(chosen[i], yItem))
  }

  /**
   * `makePairs()` (lines 40-47): for each chosen unit `yItem`, in order, the
   * pairs of every chosen unit against it.
   */
  function MakePairs(chosen: seq<int>): (pairs: seq<Pair>)
    ensures |pairs| == |chosen| * |chosen|
  {
    FlatMapLength(chosen, PairsWithY(chosen), |chosen|);
    FlatMap(chosen, PairsWithY(chosen))
  }

  /**
   * The pairs are in row-major order with `ykey` outer: pair `j` of block
   * `i` plots the `j`-th chosen unit against the `i`-th.
   */
  lemma MakePairsAt(chosen: seq<int>, i: nat, j: nat)
    requires i < |chosen| && j < |chosen|
    ensures i * |chosen| + j < |MakePairs(chosen)|
    ensures MakePairs(chosen)[i * |chosen| + j] == Pair(chosen[j], chosen[i])
  {
    var n := |chosen|;
    var pairs := MakePairs(chosen);
    FlatMapBlock(chosen, PairsWithY(chosen), n, i);
    assert pairs[i * n..i * n + n][j] == pairs[i * n + j];
  }

  /**
   * Pair `k` plots `chosen[k % n]` (x) against `chosen[k / n]` (y).
   */
  lemma MakePairsIndex(chosen: seq<int>, k: nat)
    requires k < |MakePairs(chosen)|
    ensures k / |chosen| < |chosen| && k % |chosen| < |chosen|
    ensures MakePairs(chosen)[k] == Pair(chosen[k % |chosen|], chosen[k / |chosen|])
  {
    var n := |chosen|;
    var i, j := Decompose(k, n);
    MakePairsAt(chosen, i, j);
    DivMod(i, n, j);
  }

  /** What the view renders. */
  datatype View =
    | NoPlotWidth                                     // line 53
    | SelectUnitsFirst                                // line 93
    | PlotRows(rows: seq<seq<Pair>>, plotWidth: int)  // lines 96-105

  /**
   * The rows of the grid (lines 51 and 101): `n` rows of `n` pairs, row `i`
   * plotting every chosen unit against the `i`-th, so that the pairs of a
   * row share their `ykey`.
   */
  lemma PairRows(chosen: seq<int>)
    ensures |Rows(MakePairs(chosen), RowBounds(|chosen| * |chosen|, |chosen|), |chosen|)| == |chosen|
    ensures forall i, j :: 0 <= i < |chosen| && 0 <= j < |chosen| ==>
      var row := Rows(MakePairs(chosen), RowBounds(|chosen| * |chosen|, |chosen|), |chosen|)[i];
      |row| == |chosen| && row[j] == Pair(chosen[j], chosen[i])
  {
    var n := |chosen|;
    var pairs := MakePairs(chosen);
    SquareRows(pairs, n);
    forall i | 0 <= i < n ensures Rows(pairs, Multiples(n, n), n)[i] == PairsWithY(chosen)(chosen[i]) {
      FlatMapBlock(chosen, PairsWithY(chosen), n, i);
    }
  }

  /**
   * The view (lines 49-105) for a component `width` pixels wide whose
   * `selectedUnitIds` has `selectedCount` keys: a plot width of `0` is
   * reported first; then an empty selection; otherwise the pairs cut into
   * rows at `rowBounds`, which `PairRows` describes.
   */
  function Render(width: int, chosen: seq<int>, selectedCount: nat): (v: View)
    ensures v.NoPlotWidth? <==> ComputeLayout(width, |chosen|, PlotMargin, MaxSize) == 0
    ensures v.SelectUnitsFirst? <==> ComputeLayout(width, |chosen|, PlotMargin, MaxSize) != 0 && selectedCount == 0
    ensures v.PlotRows? ==> v.plotWidth == ComputeLayout(width, |chosen|, PlotMargin, MaxSize)
    ensures v.PlotRows? ==> v.rows == Rows(MakePairs(chosen), RowBounds(|chosen| * |chosen|, |chosen|), |chosen|)
  {
    var n := |chosen|;
    var pairs := MakePairs(chosen);
    var plotWidth := ComputeLayout(width, n, PlotMargin, MaxSize);
    var rowBounds := RowBounds(|pairs|, n);
    if plotWidth == 0 then NoPlotWidth
    else if selectedCount == 0 then SelectUnitsFirst
    else
      PlotRows(Rows(pairs, rowBounds, n), plotWidth)
  }
}

=== FILE: curation.dfy ===
/**
 * Sorting curation (src/extensions/extensionInterface.ts, lines 67-181):
 * per-unit labels and merge groups of units, changed only through the
 * curation reducer. After every merge or unmerge the groups are simplified:
 * intersecting groups are united until no change happens, and groups with
 * length below two are dropped.
 */
module Curation {
  import opened JsValues
  import opened Seqs
  import opened Strings
  import opened Decimal

  type UnitId = int
  type MergeGroup = seq<UnitId>

  /** A curation; every property is optional, as in the source. */
  datatype SortingCuration = SortingCuration(
    labelsByUnit: Option<map<string, seq<string>>>,
    labelChoices: Option<seq<string>>,
    mergeGroups: Option<seq<MergeGroup>>)

  datatype SortingCurationAction =
    | SetCuration(curation: SortingCuration)
    | AddLabel(unitId: UnitId, labelText: string)
    | RemoveLabel(unitId: UnitId, labelText: string)
    | MergeUnits(unitIds: seq<UnitId>)
    | UnmergeUnits(unitIds: seq<UnitId>)

  const EmptyCuration := SortingCuration(None, None, None)

  /* ---------------- merge groups ---------------- */

  /** `intersection(a, b)`: the elements of `a` that `b` includes, in `a`'s order. */
  function Intersection(a: MergeGroup, b: MergeGroup): (r: MergeGroup)
    ensures forall x :: x in r <==> x in a && x in b
  {
    if a == [] then [] else (if a[0] in b then [a[0]] else []) + Intersection(a[1..], b)
  }

  /**
   * `union(a, b)`: `a` followed by the elements of `b` that `a` lacks, put
   * through JavaScript's default sort, which orders numbers by their decimal
   * strings.
   */
  function Union(a: MergeGroup, b: MergeGroup): (r: MergeGroup)
    ensures forall x :: x in r <==> x in a || x in b
    ensures SortedByKey(r, IntToString)
    ensures multiset(r) == multiset(a + Filter(b, x => x !in a))
  {
    var joined := a + Filter(b, x => x !in a);
    var r := SortByKey(joined, IntToString);
    assert forall x :: x in r <==> x in multiset(joined);
    r
  }

  /** `Union` as a value of type `Unite`. */
  const UnionOp: Unite := Union

  ghost predicate Disjoint(a: MergeGroup, b: MergeGroup) {
    forall x :: x in a ==> x !in b
  }

  /** No unit belongs to two groups. */
  ghost predicate PairwiseDisjoint(gs: seq<MergeGroup>) {
    forall a, b :: 0 <= a < b < |gs| ==> Disjoint(gs[a], gs[b])
  }

  /** The units that occur in some group. */
  ghost function Members(gs: seq<MergeGroup>): set<UnitId> {
    set k, x | 0 <= k < |gs| && x in gs[k] :: x
  }

  /** Every unit of every group of `gs` is in `u`. */
  ghost predicate Within(gs: seq<MergeGroup>, u: set<UnitId>) {
    forall k, x :: 0 <= k < |gs| && x in gs[k] ==> x in u
  }

  lemma WithinMembers(gs: seq<MergeGroup>, u: set<UnitId>)
    requires Within(gs, u)
    ensures Members(gs) <= u
  {
  }

  /** A group worth keeping: `g.length >= 2`. */
  function IsGroup(g: MergeGroup): bool {
    |g| >= 2
  }

  /** The invariant the simplification establishes. */
  ghost predicate ValidMergeGroups(gs: seq<MergeGroup>) {
    (forall g :: g in gs ==> IsGroup(g)) && PairwiseDisjoint(gs)
  }

  /**
   * A union operation: its result holds exactly the units of its two
   * arguments. The passes below are stated for any such operation; the
   * source's is `Union`.
   */
  type Unite = unite: (MergeGroup, MergeGroup) -> MergeGroup | Unites(unite)
    witness (a: MergeGroup, b: MergeGroup) => a + b

  ghost predicate Unites(unite: (MergeGroup, MergeGroup) -> MergeGroup) {
    forall a, b, x :: x in unite(a, b) <==> x in a || x in b
  }

  lemma UniteMembers(unite: Unite, a: MergeGroup, b: MergeGroup, x: UnitId)
    ensures x in unite(a, b) <==> x in a || x in b
  {
  }

  /** The number of non-empty groups: the measure that every union decreases. */
  function NonEmpty(gs: seq<MergeGroup>): nat {
    if gs == [] then 0 else NonEmpty(gs[..|gs| - 1]) + (if gs[|gs| - 1] != [] then 1 else 0)
  }

  lemma {:induction false} NonEmptyUpdate(gs: seq<MergeGroup>, k: nat, v: MergeGroup)
    requires k < |gs|
    ensures NonEmpty(gs[k := v]) ==
            NonEmpty(gs) - (if gs[k] != [] then 1 else 0) + (if v != [] then 1 else 0)
  {
    var n := |gs|;
    if k == n - 1 {
      assert gs[k := v][..n - 1] == gs[..n - 1];
    } else {
      NonEmptyUpdate(gs[..n - 1], k, v);
      assert gs[k := v][..n - 1] == gs[..n - 1][k := v];
    }
  }

  /**
   * One hit of the inner loop (lines 119-123): group `i` becomes the union
   * of the group read at line 116 with group `j`, and group `j` is emptied.
   * One non-empty group fewer, no new unit, and group `i` still holds `g1`.
   */
  lemma HitStep(gs: seq<MergeGroup>, i: nat, g1: MergeGroup, j: nat, unite: Unite)
    requires i < j < |gs|
    requires forall x :: x in g1 ==> x in gs[i]
    requires |Intersection(g1, gs[j])| > 0
    ensures var next := gs[i := unite(g1, gs[j])][j := []];
            && NonEmpty(next) == NonEmpty(gs) - 1
            && (forall x :: x in g1 ==> x in next[i])
  {
    var u := unite(g1, gs[j]);
    var x := Intersection(g1, gs[j])[0];
    assert x in Intersection(g1, gs[j]);
    assert x in gs[i] && x in gs[j] && x in u;
    NonEmptyUpdate(gs, i, u);
    NonEmptyUpdate(gs[i := u], j, []);
  }

  lemma HitWithin(gs: seq<MergeGroup>, i: nat, g1: MergeGroup, j: nat, unite: Unite, u: set<UnitId>)
    requires i < j < |gs|
    requires forall x :: x in g1 ==> x in gs[i]
    requires Within(gs, u)
    ensures Within(gs[i := unite(g1, gs[j])][j := []], u)
  {
    var next := gs[i := unite(g1, gs[j])][j := []];
    forall k, x | 0 <= k < |next| && x in next[k] ensures x in u {
      if k == i {
        if x in g1 {
          assert x in gs[i];
        } else {
          assert x in gs[j];
        }
      } else {
        assert x in gs[k];
      }
    }
  }

  /**
   * The inner `for j` loop (lines 117-124) from index `j` on, with `g1` the
   * group read once at line 116 and `changed` the value of
   * `somethingChanged` so far. Returns the groups and the flag afterwards.
   * Every hit leaves one non-empty group fewer, so the flag is set exactly
   * when the count drops.
   */
  function InnerPass(gs: seq<MergeGroup>, i: nat, g1: MergeGroup, j: nat, changed: bool, unite: Unite)
    : (r: (seq<MergeGroup>, bool))
    requires i < j <= |gs|
    requires forall x :: x in g1 ==> x in gs[i]
    decreases |gs| - j
    ensures |r.0| == |gs|
    ensures NonEmpty(r.0) <= NonEmpty(gs)
    ensures r.1 <==> changed || NonEmpty(r.0) < NonEmpty(gs)
    ensures NonEmpty(r.0) == NonEmpty(gs) ==> r.0 == gs
  {
    if j == |gs| then (gs, changed)
    else if |Intersection(g1, gs[j])| > 0 then
      HitStep(gs, i, g1, j, unite);
      InnerPass(gs[i := unite(g1, gs[j])][j := []], i, g1, j + 1, true, unite)
    else
      InnerPass(gs, i, g1, j + 1, changed, unite)
  }

  /** The outer `for i` loop (lines 115-125) from index `i` on. */
  function OuterPass(gs: seq<MergeGroup>, i: nat, changed: bool, unite: Unite): (r: (seq<MergeGroup>, bool))
    requires i <= |gs|
    decreases |gs| - i
    ensures |r.0| == |gs|
    ensures NonEmpty(r.0) <= NonEmpty(gs)
    ensures r.1 <==> changed || NonEmpty(r.0) < NonEmpty(gs)
    ensures NonEmpty(r.0) == NonEmpty(gs) ==> r.0 == gs
  {
    if i == |gs| then (gs, changed)
    else
      var p := InnerPass(gs, i, gs[i], i + 1, changed, unite);
      OuterPass(p.0, i + 1, p.1, unite)
  }

  /**
   * The `while (somethingChanged)` loop (lines 113-126). It terminates
   * because a pass that changes something leaves fewer non-empty groups.
   */
  function Fix(gs: seq<MergeGroup>, unite: Unite): seq<MergeGroup>
    decreases NonEmpty(gs)
  {
    var p := OuterPass(gs, 0, false, unite);
    if p.1 then Fix(p.0, unite) else p.0
  }

  /** An inner pass adds no unit. */
  lemma {:induction false} InnerPassWithin(
    gs: seq<MergeGroup>, i: nat, g1: MergeGroup, j: nat, changed: bool, unite: Unite, u: set<UnitId>)
    requires i < j <= |gs|
    requires forall x :: x in g1 ==> x in gs[i]
    requires Within(gs, u)
    decreases |gs| - j, 1
    ensures Within(InnerPass(gs, i, g1, j, changed, unite).0, u)
  {
    if j < |gs| {
      if |Intersection(g1, gs[j])| > 0 {
        HitPassWithin(gs, i, g1, j, changed, unite, u);
      } else {
        assert InnerPass(gs, i, g1, j, changed, unite) == InnerPass(gs, i, g1, j + 1, changed, unite);
        InnerPassWithin(gs, i, g1, j + 1, changed, unite, u);
      }
    }
  }

  lemma {:induction false} HitPassWithin(
    gs: seq<MergeGroup>, i: nat, g1: MergeGroup, j: nat, changed: bool, unite: Unite, u: set<UnitId>)
    requires i < j < |gs|
    requires forall x :: x in g1 ==> x in gs[i]
    requires |Intersection(g1, gs[j])| > 0
    requires Within(gs, u)
    decreases |gs| - j, 0
    ensures Within(InnerPass(gs, i, g1, j, changed, unite).0, u)
  {
    var next := gs[i := unite(g1, gs[j])][j := []];
    HitKeeps(gs, i, g1, j, unite);
    HitWithin(gs, i, g1, j, unite, u);
    InnerPassWithin(next, i, g1, j + 1, true, unite, u);
    HitTransfer(gs, i, g1, j, changed, unite, u);
  }

  /** After a hit, group `i` still holds every unit of `g1`. */
  lemma HitKeeps(gs: seq<MergeGroup>, i: nat, g1: MergeGroup, j: nat, unite: Unite)
    requires i < j < |gs|
    ensures forall x :: x in g1 ==> x in gs[i := unite(g1, gs[j])][j := []][i]
  {
    forall x | x in g1 ensures x in gs[i := unite(g1, gs[j])][j := []][i] {
      UniteMembers(unite, g1, gs[j], x);
    }
  }

  lemma HitTransfer(gs: seq<MergeGroup>, i: nat, g1: MergeGroup, j: nat, changed: bool, unite: Unite, u: set<UnitId>)
    requires i < j < |gs|
    requires forall x :: x in g1 ==> x in gs[i]
    requires |Intersection(g1, gs[j])| > 0
    requires Within(InnerPass(gs[i := unite(g1, gs[j])][j := []], i, g1, j + 1, true, unite).0, u)
    ensures Within(InnerPass(gs, i, g1, j, changed, unite).0, u)
  {
    HitUnfold(gs, i, g1, j, changed, unite);
  }

  /** The inner loop on a hit at `j` goes on from `j + 1` with the united groups. */
  lemma HitUnfold(gs: seq<MergeGroup>, i: nat, g1: MergeGroup, j: nat, changed: bool, unite: Unite)
    requires i < j < |gs|
    requires forall x :: x in g1 ==> x in gs[i]
    requires |Intersection(g1, gs[j])| > 0
    ensures forall x :: x in g1 ==> x in gs[i := unite(g1, gs[j])][j := []][i]
    ensures InnerPass(gs, i, g1, j, changed, unite) ==
            InnerPass(gs[i := unite(g1, gs[j])][j := []], i, g1, j + 1, true, unite)
  {
    HitStep(gs, i, g1, j, unite);
  }

  /** An inner pass that changes nothing found `g1` disjoint from every group it compared. */
  lemma {:induction false} InnerPassDisjoint(
    gs: seq<MergeGroup>, i: nat, g1: MergeGroup, j: nat, changed: bool, unite: Unite)
    requires i < j <= |gs|
    requires forall x :: x in g1 ==> x in gs[i]
    requires NonEmpty(InnerPass(gs, i, g1, j, changed, unite).0) == NonEmpty(gs)
    decreases |gs| - j
    ensures forall k :: j <= k < |gs| ==> Disjoint(g1, gs[k])
  {
    if j < |gs| {
      if |Intersection(g1, gs[j])| > 0 {
        HitDecreases(gs, i, g1, j, changed, unite);
        assert false;
      }
      assert InnerPass(gs, i, g1, j, changed, unite) == InnerPass(gs, i, g1, j + 1, changed, unite);
      InnerPassDisjoint(gs, i, g1, j + 1, changed, unite);
      EmptyIntersection(g1, gs[j]);
      forall k | j <= k < |gs| ensures Disjoint(g1, gs[k]) {
        if k == j {
          assert Disjoint(g1, gs[j]);
        } else {
          assert j + 1 <= k;
        }
      }
    }
  }

  /** An inner pass that finds a hit at `j` ends with fewer non-empty groups. */
  lemma HitDecreases(gs: seq<MergeGroup>, i: nat, g1: MergeGroup, j: nat, changed: bool, unite: Unite)
    requires i < j < |gs|
    requires forall x :: x in g1 ==> x in gs[i]
    requires |Intersection(g1, gs[j])| > 0
    ensures NonEmpty(InnerPass(gs, i, g1, j, changed, unite).0) < NonEmpty(gs)
  {
    var next := gs[i := unite(g1, gs[j])][j := []];
    HitStep(gs, i, g1, j, unite);
    assert InnerPass(gs, i, g1, j, changed, unite) == InnerPass(next, i, g1, j + 1, true, unite);
  }

  lemma EmptyIntersection(a: MergeGroup, b: MergeGroup)
    requires |Intersection(a, b)| == 0
    ensures Disjoint(a, b)
  {
    forall x | x in a ensures x !in b {
      assert x !in Intersection(a, b);
    }
  }

  /** An outer pass adds no unit. */
  lemma {:induction false} OuterPassWithin(gs: seq<MergeGroup>, i: nat, changed: bool, unite: Unite, u: set<UnitId>)
    requires i <= |gs|
    requires Within(gs, u)
    decreases |gs| - i
    ensures Within(OuterPass(gs, i, changed, unite).0, u)
  {
    if i < |gs| {
      var p := InnerPass(gs, i, gs[i], i + 1, changed, unite);
      InnerPassWithin(gs, i, gs[i], i + 1, changed, unite, u);
      OuterPassWithin(p.0, i + 1, p.1, unite, u);
    }
  }

  /** An outer pass that changes nothing found the groups pairwise disjoint. */
  lemma {:induction false} OuterPassDisjoint(gs: seq<MergeGroup>, i: nat, changed: bool, unite: Unite)
    requires i <= |gs|
    requires NonEmpty(OuterPass(gs, i, changed, unite).0) == NonEmpty(gs)
    decreases |gs| - i
    ensures forall a, b :: i <= a < b < |gs| ==> Disjoint(gs[a], gs[b])
  {
    if i < |gs| {
      var p := InnerPass(gs, i, gs[i], i + 1, changed, unite);
      assert OuterPass(gs, i, changed, unite) == OuterPass(p.0, i + 1, p.1, unite);
      assert NonEmpty(p.0) == NonEmpty(gs);
      InnerPassDisjoint(gs, i, gs[i], i + 1, changed, unite);
      OuterPassDisjoint(p.0, i + 1, p.1, unite);
    }
  }

  /** The loop's result: pairwise disjoint groups of units that were in the input. */
  lemma {:induction false} FixProperties(gs: seq<MergeGroup>, unite: Unite, u: set<UnitId>)
    requires Within(gs, u)
    decreases NonEmpty(gs)
    ensures PairwiseDisjoint(Fix(gs, unite))
    ensures Within(Fix(gs, unite), u)
  {
    var p := OuterPass(gs, 0, false, unite);
    OuterPassWithin(gs, 0, false, unite, u);
    if p.1 {
      FixProperties(p.0, unite, u);
    } else {
      OuterPassDisjoint(gs, 0, false, unite);
    }
  }

  /** An inner pass over groups that `g1` does not meet changes nothing. */
  lemma {:induction false} InnerPassDisjointId(
    gs: seq<MergeGroup>, i: nat, g1: MergeGroup, j: nat, changed: bool, unite: Unite)
    requires i < j <= |gs|
    requires forall x :: x in g1 ==> x in gs[i]
    requires forall k :: j <= k < |gs| ==> Disjoint(g1, gs[k])
    decreases |gs| - j
    ensures InnerPass(gs, i, g1, j, changed, unite) == (gs, changed)
  {
    if j < |gs| {
      assert Disjoint(g1, gs[j]);
      DisjointIntersection(g1, gs[j]);
      InnerPassDisjointId(gs, i, g1, j + 1, changed, unite);
    }
  }

  /** Disjoint groups have an empty intersection: the converse of `EmptyIntersection`. */
  lemma {:induction false} DisjointIntersection(a: MergeGroup, b: MergeGroup)
    requires Disjoint(a, b)
    ensures Intersection(a, b) == []
  {
    if a != [] {
      assert forall x :: x in a ==> x !in b;
      assert a[0] in a;
      assert a[0] !in b;
      assert Disjoint(a[1..], b) by {
        forall x | x in a[1..] ensures x !in b {
          assert x in a;
        }
      }
      DisjointIntersection(a[1..], b);
      assert Intersection(a, b) == [] + Intersection(a[1..], b);
    }
  }

  /**
   * An outer pass over pairwise disjoint groups changes nothing: the
   * converse of `OuterPassDisjoint`.
   */
  lemma {:induction false} OuterPassDisjointId(gs: seq<MergeGroup>, i: nat, changed: bool, unite: Unite)
    requires i <= |gs|
    requires PairwiseDisjoint(gs)
    decreases |gs| - i
    ensures OuterPass(gs, i, changed, unite) == (gs, changed)
  {
    if i < |gs| {
      InnerPassDisjointId(gs, i, gs[i], i + 1, changed, unite);
      OuterPassDisjointId(gs, i + 1, changed, unite);
    }
  }

  /** Pairwise disjoint groups are a fixpoint of the `while` loop. */
  lemma FixDisjointId(gs: seq<MergeGroup>, unite: Unite)
    requires PairwiseDisjoint(gs)
    ensures Fix(gs, unite) == gs
  {
    OuterPassDisjointId(gs, 0, false, unite);
  }

  lemma {:induction false} FilterGroupsDisjoint(gs: seq<MergeGroup>)
    requires PairwiseDisjoint(gs)
    ensures PairwiseDisjoint(Filter(gs, IsGroup))
  {
    if gs != [] {
      var tail := gs[1..];
      assert PairwiseDisjoint(tail) by {
        forall a, b | 0 <= a < b < |tail| ensures Disjoint(tail[a], tail[b]) {
          assert tail[a] == gs[a + 1] && tail[b] == gs[b + 1];
        }
      }
      FilterGroupsDisjoint(tail);
      var ft := Filter(tail, IsGroup);
      if IsGroup(gs[0]) {
        var f := [gs[0]] + ft;
        assert Filter(gs, IsGroup) == f;
        HeadDisjointFromRest(gs, ft);
        forall a, b | 0 <= a < b < |f| ensures Disjoint(f[a], f[b]) {
          if a > 0 {
            assert f[a] == ft[a - 1] && f[b] == ft[b - 1];
          }
        }
      } else {
        assert Filter(gs, IsGroup) == ft;
      }
    }
  }

  lemma HeadDisjointFromRest(gs: seq<MergeGroup>, rest: seq<MergeGroup>)
    requires PairwiseDisjoint(gs) && gs != []
    requires forall g :: g in rest ==> g in gs[1..]
    ensures forall b :: 0 <= b < |rest| ==> Disjoint(gs[0], rest[b])
  {
    forall b | 0 <= b < |rest| ensures Disjoint(gs[0], rest[b]) {
      assert rest[b] in gs[1..];
      var k :| 0 <= k < |gs[1..]| && gs[1..][k] == rest[b];
      assert gs[k + 1] == rest[b];
    }
  }

  lemma FilterGroupsWithin(gs: seq<MergeGroup>, u: set<UnitId>)
    requires Within(gs, u)
    ensures Within(Filter(gs, IsGroup), u)
  {
    var f := Filter(gs, IsGroup);
    forall k, x | 0 <= k < |f| && x in f[k] ensures x in u {
      assert f[k] in gs;
    }
  }

  /**
   * `simplifyMergeGroups(mg)` (lines 110-128) as a function: every group it
   * returns has length at least two, the groups are pairwise disjoint, and
   * every member was a member of some input group. (Not every input member
   * survives: see `StaleGroupLosesMember`.) Groups that are already pairwise
   * disjoint are only rid of those shorter than two.
   */
  function Simplified(mg: seq<MergeGroup>): (r: seq<MergeGroup>)
    ensures ValidMergeGroups(r)
    ensures Members(r) <= Members(mg)
    ensures PairwiseDisjoint(mg) ==> r == Filter(mg, IsGroup)
  {
    assert PairwiseDisjoint(mg) ==> Fix(mg, UnionOp) == mg by {
      if PairwiseDisjoint(mg) {
        FixDisjointId(mg, UnionOp);
      }
    }
    var fixed := Fix(mg, UnionOp);
    FixProperties(mg, UnionOp, Members(mg));
    FilterGroupsDisjoint(fixed);
    FilterGroupsWithin(fixed, Members(mg));
    WithinMembers(Filter(fixed, IsGroup), Members(mg));
    Filter(fixed, IsGroup)
  }

  /** Simplifying twice is simplifying once. */
  lemma SimplifiedIdempotent(mg: seq<MergeGroup>)
    ensures Simplified(Simplified(mg)) == Simplified(mg)
  {
    FilterAll(Simplified(mg), IsGroup);
  }

  /**
   * `simplifyMergeGroups` as the source runs it: a copy of the groups in an
   * array, changed in place by the nested loops until a pass changes nothing.
   */
  method SimplifyMergeGroups(mg: seq<MergeGroup>) returns (r: seq<MergeGroup>)
    ensures r == Simplified(mg)
    ensures ValidMergeGroups(r)
    ensures Members(r) <= Members(mg)
  {
    var groups := new MergeGroup[|mg|](k requires 0 <= k < |mg| => mg[k]);
    assert groups[..] == mg;
    var somethingChanged := true;
    while somethingChanged
      invariant somethingChanged ==> Fix(groups[..], UnionOp) == Fix(mg, UnionOp)
      invariant !somethingChanged ==> groups[..] == Fix(mg, UnionOp)
      decreases if somethingChanged then NonEmpty(groups[..]) + 1 else 0
    {
      somethingChanged := UnitePass(groups, UnionOp);
    }
    r := Filter(groups[..], IsGroup);
  }

  /** One pass of the `for i` loop (lines 114-125), with the flag cleared first. */
  method UnitePass(groups: array<MergeGroup>, unite: Unite) returns (somethingChanged: bool)
    modifies groups
    ensures (groups[..], somethingChanged) == OuterPass(old(groups[..]), 0, false, unite)
  {
    ghost var before := groups[..];
    somethingChanged := false;
    for i := 0 to groups.Length
      invariant OuterPass(groups[..], i, somethingChanged, unite) == OuterPass(before, 0, false, unite)
    {
      ghost var prev, changedPrev := groups[..], somethingChanged;
      somethingChanged := UniteWithLaterGroups(groups, i, somethingChanged, unite);
      assert OuterPass(prev, i, changedPrev, unite) ==
             OuterPass(groups[..], i + 1, somethingChanged, unite);
    }
    assert OuterPass(groups[..], groups.Length, somethingChanged, unite) == (groups[..], somethingChanged);
  }

  /**
   * One round of the inner loop of `simplifyMergeGroups` (lines 116-124):
   * the group at `i`, read once, is compared with every later group; on a
   * shared unit group `i` becomes their union, the later group is emptied
   * and the flag is set.
   */
  method UniteWithLaterGroups(groups: array<MergeGroup>, i: nat, somethingChanged: bool, unite: Unite)
    returns (changed: bool)
    requires i < groups.Length
    modifies groups
    ensures (groups[..], changed) ==
            InnerPass(old(groups[..]), i, old(groups[i]), i + 1, somethingChanged, unite)
  {
    var g1 := groups[i];
    changed := somethingChanged;
    ghost var start := groups[..];
    for j := i + 1 to groups.Length
      invariant forall x :: x in g1 ==> x in groups[i]
      invariant InnerPass(groups[..], i, g1, j, changed, unite) ==
                InnerPass(start, i, g1, i + 1, somethingChanged, unite)
    {
      var g2 := groups[j];
      ghost var prev, changedPrev := groups[..], changed;
      if |Intersection(g1, g2)| > 0 {
        HitStep(prev, i, g1, j, unite);
        groups[i] := unite(g1, g2);
        groups[j] := [];
        changed := true;
        assert groups[..] == prev[i := unite(g1, g2)][j := []];
      }
      assert InnerPass(prev, i, g1, j, changedPrev, unite) ==
             InnerPass(groups[..], i, g1, j + 1, changed, unite);
    }
  }

  /** `mergeGroupForUnitId` (lines 130-133): the first merge group that holds the unit, or `null`. */
  function MergeGroupForUnitId(unitId: UnitId, curation: Option<SortingCuration>)
    : (r: Option<MergeGroup>)
    ensures var groups := if curation.Some? then MergeGroupsOf(curation.value) else [];
            && (r.None? <==> forall g :: g in groups ==> unitId !in g)
            && (r.Some? ==>
                  && unitId in r.value
                  && exists k :: 0 <= k < |groups| && groups[k] == r.value &&
                       forall k' :: 0 <= k' < k ==> unitId !in groups[k'])
  {
    var groups := if curation.Some? then MergeGroupsOf(curation.value) else [];
    var hits := Filter(groups, g => unitId in g);
    if |hits| > 0 then
      FilterFirst(groups, g => unitId in g);
      Some(hits[0])
    else
      assert forall g :: g in groups && unitId in g ==> g in hits;
      None
  }

  /* ---------------- the reducer ---------------- */

  /** `state.labelsByUnit || {}` */
  function LabelsMap(state: SortingCuration): map<string, seq<string>> {
    state.labelsByUnit.GetOr(map[])
  }

  /** `(state.labelsByUnit || {})[uid] || []` */
  function LabelsOf(state: SortingCuration, uid: string): seq<string> {
    var m := LabelsMap(state);
    if uid in m then m[uid] else []
  }

  /** `state.mergeGroups || []` */
  function MergeGroupsOf(state: SortingCuration): seq<MergeGroup> {
    state.mergeGroups.GetOr([])
  }

  /** The key JavaScript's default sort compares strings by: the string itself. */
  function AsString(s: string): string {
    s
  }

  /** Removes every listed unit from a group (line 177). */
  function WithoutUnits(g: MergeGroup, unitIds: seq<UnitId>): (r: MergeGroup)
    ensures forall x :: x in r <==> x in g && x !in unitIds
  {
    Filter(g, x => x !in unitIds)
  }

  /** Every group with the listed units removed (line 177). */
  function StripUnits(groups: seq<MergeGroup>, unitIds: seq<UnitId>): seq<MergeGroup> {
    seq(|groups|, k requires 0 <= k < |groups| => WithoutUnits(groups[k], unitIds))
  }

  /**
   * The `AddLabel` branch (lines 140-153). The unit then carries the label;
   * a missing label is added once and the unit's list is sorted; every other
   * key of `labelsByUnit` keeps its list. Labels are keyed by the decimal
   * string of the unit id.
   */
  function AddLabelTo(state: SortingCuration, unitId: UnitId, labelText: string): (r: SortingCuration)
    ensures var uid := IntToString(unitId);
            var before := LabelsOf(state, uid);
            && labelText in LabelsOf(r, uid)
            && multiset(LabelsOf(r, uid)) ==
               multiset(before) + (if labelText in before then multiset{} else multiset{labelText})
            && (labelText !in before ==> SortedByKey(LabelsOf(r, uid), AsString))
            && (labelText in before ==> r == state)
            && (forall key :: key != uid ==> LabelsOf(r, key) == LabelsOf(state, key))
            && r.mergeGroups == state.mergeGroups && r.labelChoices == state.labelChoices
  {
    var uid := IntToString(unitId);
    var labels := LabelsOf(state, uid);
    if labelText !in labels then
      var sorted := SortByKey(labels + [labelText], AsString);
      assert multiset(sorted) == multiset(labels) + multiset{labelText};
      assert labelText in multiset(sorted);
      var r := state.(labelsByUnit := Some(LabelsMap(state)[uid := sorted]));
      assert LabelsOf(r, uid) == sorted;
      r
    else state
  }

  /**
   * The `RemoveLabel` branch (lines 154-167). No occurrence of the label is
   * left on the unit, its other labels keep their multiplicities and their
   * order, so a sorted list stays sorted, and every other key of
   * `labelsByUnit` keeps its list.
   */
  function RemoveLabelFrom(state: SortingCuration, unitId: UnitId, labelText: string)
    : (r: SortingCuration)
    ensures var uid := IntToString(unitId);
            && labelText !in LabelsOf(r, uid)
            && (labelText !in LabelsOf(state, uid) ==> r == state)
            && (forall l :: l != labelText ==>
                  multiset(LabelsOf(r, uid))[l] == multiset(LabelsOf(state, uid))[l])
            && (SortedByKey(LabelsOf(state, uid), AsString) ==> SortedByKey(LabelsOf(r, uid), AsString))
            && (forall key :: key != uid ==> LabelsOf(r, key) == LabelsOf(state, key))
            && r.mergeGroups == state.mergeGroups && r.labelChoices == state.labelChoices
  {
    var uid := IntToString(unitId);
    var labels := LabelsOf(state, uid);
    if labelText in labels then
      var kept := Filter(labels, l => l != labelText);
      assert forall l :: l != labelText ==> multiset(kept)[l] == multiset(labels)[l] by {
        forall l | l != labelText ensures multiset(kept)[l] == multiset(labels)[l] {
          FilterMultiset(labels, l' => l' != labelText, l);
        }
      }
      assert SortedByKey(labels, AsString) ==> SortedByKey(kept, AsString) by {
        if SortedByKey(labels, AsString) {
          FilterSorted(labels, l => l != labelText, AsString);
        }
      }
      state.(labelsByUnit := Some(LabelsMap(state)[uid := kept]))
    else state
  }

  /** Filtering keeps the order, so the filtered list of a sorted list is sorted. */
  lemma {:induction false} FilterSorted<T(!new)>(s: seq<T>, p: T -> bool, key: T -> string)
    requires SortedByKey(s, key)
    ensures SortedByKey(Filter(s, p), key)
  {
    if s != [] {
      var rest := Filter(s[1..], p);
      assert SortedByKey(s[1..], key) by {
        forall i, j | 0 <= i < j < |s[1..]|
          ensures !StrLess(key(s[1..][j]), key(s[1..][i]))
        {
          assert s[1..][j] == s[j + 1] && s[1..][i] == s[i + 1];
        }
      }
      FilterSorted(s[1..], p, key);
      if p(s[0]) {
        forall y | y in rest
          ensures !StrLess(key(y), key(s[0]))
        {
          var k :| 0 <= k < |s[1..]| && s[1..][k] == y;
          assert s[k + 1] == y;
        }
        SortedCons(s[0], rest, key);
      }
    }
  }

  /** An element no greater than any element of a sorted list can go before it. */
  lemma SortedCons<T>(x: T, t: seq<T>, key: T -> string)
    requires SortedByKey(t, key)
    requires forall y :: y in t ==> !StrLess(key(y), key(x))
    ensures SortedByKey([x] + t, key)
  {
    var r := [x] + t;
    forall i, j | 0 <= i < j < |r|
      ensures !StrLess(key(r[j]), key(r[i]))
    {
      assert r[j] == t[j - 1];
      if i > 0 {
        assert r[i] == t[i - 1];
      }
    }
  }

  /**
   * The `MergeUnits` branch (lines 168-173): the listed units are appended
   * as one more group and the groups are simplified. The labels are kept;
   * the groups are valid and hold only units that were grouped before or
   * were listed.
   */
  function MergeUnitsInto(state: SortingCuration, unitIds: seq<UnitId>): (r: SortingCuration)
    ensures r.labelsByUnit == state.labelsByUnit && r.labelChoices == state.labelChoices
    ensures r.mergeGroups.Some? && ValidMergeGroups(r.mergeGroups.value)
    ensures Members(r.mergeGroups.value) <= Members(MergeGroupsOf(state)) + set x | x in unitIds
  {
    MembersAppend(MergeGroupsOf(state), unitIds);
    state.(mergeGroups := Some(Simplified(MergeGroupsOf(state) + [unitIds])))
  }

  /**
   * The `UnmergeUnits` branch (lines 174-179): the listed units are removed
   * from every group and the groups are simplified. The labels are kept; the
   * groups are valid and none holds a listed unit. From disjoint groups, as
   * the reducer always leaves them, every group keeps its other units, in
   * order, and only groups left shorter than two are dropped.
   */
  function UnmergeUnitsFrom(state: SortingCuration, unitIds: seq<UnitId>): (r: SortingCuration)
    ensures r.labelsByUnit == state.labelsByUnit && r.labelChoices == state.labelChoices
    ensures r.mergeGroups.Some? && ValidMergeGroups(r.mergeGroups.value)
    ensures forall g, x :: g in r.mergeGroups.value && x in unitIds ==> x !in g
    ensures var gs := MergeGroupsOf(state);
            PairwiseDisjoint(gs) ==> r.mergeGroups == Some(Filter(StripUnits(gs, unitIds), IsGroup))
  {
    var groups := MergeGroupsOf(state);
    var stripped := StripUnits(groups, unitIds);
    StrippedDisjoint(groups, unitIds);
    var simplified := Simplified(stripped);
    assert forall g, x :: g in simplified && x in g ==> x !in unitIds by {
      forall g, x | g in simplified && x in g ensures x !in unitIds {
        var k :| 0 <= k < |simplified| && simplified[k] == g;
        assert x in Members(simplified);
        var k' :| 0 <= k' < |stripped| && x in stripped[k'];
      }
    }
    state.(mergeGroups := Some(simplified))
  }

  /** Removing units from disjoint groups leaves them disjoint. */
  lemma StrippedDisjoint(groups: seq<MergeGroup>, unitIds: seq<UnitId>)
    ensures PairwiseDisjoint(groups) ==> PairwiseDisjoint(StripUnits(groups, unitIds))
  {
    var stripped := StripUnits(groups, unitIds);
    if PairwiseDisjoint(groups) {
      forall a, b | 0 <= a < b < |stripped| ensures Disjoint(stripped[a], stripped[b]) {
        assert Disjoint(groups[a], groups[b]);
      }
    }
  }

  /**
   * `sortingCurationReducer` (lines 136-181). Label actions leave the merge
   * groups alone; merge actions leave the labels alone and always yield
   * valid merge groups.
   */
  function SortingCurationReducer(state: SortingCuration, action: SortingCurationAction)
    : (r: SortingCuration)
    ensures action.SetCuration? ==> r == action.curation
    ensures (action.AddLabel? || action.RemoveLabel?) ==>
              r.mergeGroups == state.mergeGroups && r.labelChoices == state.labelChoices
    ensures (action.MergeUnits? || action.UnmergeUnits?) ==>
              && r.labelsByUnit == state.labelsByUnit && r.labelChoices == state.labelChoices
              && r.mergeGroups.Some? && ValidMergeGroups(r.mergeGroups.value)
  {
    match action
    case SetCuration(curation) => curation
    case AddLabel(unitId, labelText) => AddLabelTo(state, unitId, labelText)
    case RemoveLabel(unitId, labelText) => RemoveLabelFrom(state, unitId, labelText)
    case MergeUnits(unitIds) => MergeUnitsInto(state, unitIds)
    case UnmergeUnits(unitIds) => UnmergeUnitsFrom(state, unitIds)
  }

  /* ---------------- properties of the reducer ---------------- */

  /** Labels of different units are kept apart: their keys differ. */
  lemma AddLabelOtherUnit(state: SortingCuration, unitId: UnitId, labelText: string, other: UnitId)
    requires other != unitId
    ensures var r := SortingCurationReducer(state, AddLabel(unitId, labelText));
            LabelsOf(r, IntToString(other)) == LabelsOf(state, IntToString(other))
  {
    IntToStringDistinct(other, unitId);
  }

  /** Adding a label twice is the same as adding it once. */
  lemma AddLabelIdempotent(state: SortingCuration, unitId: UnitId, labelText: string)
    ensures var once := AddLabelTo(state, unitId, labelText);
            AddLabelTo(once, unitId, labelText) == once
  {
  }

  /** Removing a label that was just added gives back the unit's labels, up to order. */
  lemma AddThenRemoveLabel(state: SortingCuration, unitId: UnitId, labelText: string)
    requires labelText !in LabelsOf(state, IntToString(unitId))
    ensures var r := RemoveLabelFrom(AddLabelTo(state, unitId, labelText), unitId, labelText);
            multiset(LabelsOf(r, IntToString(unitId))) == multiset(LabelsOf(state, IntToString(unitId)))
  {
    var uid := IntToString(unitId);
    var added := AddLabelTo(state, unitId, labelText);
    var r := RemoveLabelFrom(added, unitId, labelText);
    forall l ensures multiset(LabelsOf(r, uid))[l] == multiset(LabelsOf(state, uid))[l] {
      if l == labelText {
        assert l !in multiset(LabelsOf(r, uid));
      }
    }
    assert multiset(LabelsOf(r, uid)) == multiset(LabelsOf(state, uid));
  }

  /** The units of a sequence of groups followed by one more group. */
  lemma MembersAppend(gs: seq<MergeGroup>, g: MergeGroup)
    ensures Members(gs + [g]) == Members(gs) + set x | x in g
  {
    var all := gs + [g];
    forall x | x in Members(all) ensures x in Members(gs) || x in g {
      var k :| 0 <= k < |all| && x in all[k];
      if k < |gs| {
        assert x in gs[k];
      }
    }
    forall x | x in Members(gs) ensures x in Members(all) {
      var k :| 0 <= k < |gs| && x in gs[k];
      assert x in all[k];
    }
    forall x | x in g ensures x in Members(all) {
      assert x in all[|gs|];
    }
  }

  /* ---------------- behaviour on small inputs ---------------- */

  /**
   * `union` sorts numbers as strings: "10" comes before "9", so
   * `union([10], [9])` is `[10, 9]`.
   */
  lemma UnionSortsAsStrings()
    ensures Union([10], [9]) == [10, 9]
  {
    SortTenNine();
    assert Filter([9], x => x !in [10]) == [9];
    assert [10] + [9] == [10, 9];
  }

  lemma SortTenNine()
    ensures SortByKey([10, 9], IntToString) == [10, 9]
  {
    var s: seq<UnitId> := [10, 9];
    DecimalTenNine();
    assert !StrLess("9", "10");
    assert SortByKey([10], IntToString) == [10] by {
      assert [10][..0] == [];
    }
    assert s[..1] == [10];
    assert InsertByKey(9, [10], IntToString) == [10, 9];
  }

  lemma DecimalTenNine()
    ensures IntToString(10) == "10" && IntToString(9) == "9"
  {
    assert NatToString(1) == "1";
    assert NatToString(10) == NatToString(1) + [DigitChar(0)];
  }

  /** The first pass over `[[1, 2], [2, 3], [1, 4]]`, for any union operation. */
  lemma StaleFirstPass(unite: Unite)
    ensures OuterPass([[1, 2], [2, 3], [1, 4]], 0, false, unite) == ([unite([1, 2], [1, 4]), [], []], true)
  {
    var mg: seq<MergeGroup> := [[1, 2], [2, 3], [1, 4]];
    assert Intersection([1, 2], [2, 3]) == [2];
    assert Intersection([1, 2], [1, 4]) == [1];
    var step1 := mg[0 := unite([1, 2], [2, 3])][1 := []];
    var step2 := step1[0 := unite([1, 2], [1, 4])][2 := []];
    assert InnerPass(mg, 0, [1, 2], 1, false, unite) == InnerPass(step1, 0, [1, 2], 2, true, unite);
    assert InnerPass(step1, 0, [1, 2], 2, true, unite) == (step2, true);
    assert step2 == [unite([1, 2], [1, 4]), [], []];
    assert InnerPass(step2, 1, [], 2, true, unite) == (step2, true);
    assert InnerPass(step2, 2, [], 3, true, unite) == (step2, true);
    assert OuterPass(step2, 3, true, unite) == (step2, true);
    assert OuterPass(step2, 2, true, unite) == OuterPass(step2, 3, true, unite);
    assert OuterPass(step2, 1, true, unite) == OuterPass(step2, 2, true, unite);
    assert OuterPass(mg, 0, false, unite) == OuterPass(step2, 1, true, unite);
  }

  /** The second pass changes nothing, for any union operation. */
  lemma StaleSecondPass(unite: Unite)
    ensures var fixed: seq<MergeGroup> := [unite([1, 2], [1, 4]), [], []];
            OuterPass(fixed, 0, false, unite) == (fixed, false)
  {
    var u := unite([1, 2], [1, 4]);
    var fixed: seq<MergeGroup> := [u, [], []];
    IntersectionWithEmpty(u);
    assert InnerPass(fixed, 0, u, 2, false, unite) == (fixed, false);
    assert InnerPass(fixed, 0, u, 1, false, unite) == (fixed, false);
    assert InnerPass(fixed, 1, [], 2, false, unite) == (fixed, false);
    assert InnerPass(fixed, 2, [], 3, false, unite) == (fixed, false);
    assert OuterPass(fixed, 3, false, unite) == (fixed, false);
    assert OuterPass(fixed, 2, false, unite) == OuterPass(fixed, 3, false, unite);
    assert OuterPass(fixed, 1, false, unite) == OuterPass(fixed, 2, false, unite);
  }

  lemma {:induction false} IntersectionWithEmpty(a: MergeGroup)
    ensures Intersection(a, []) == []
  {
    if a != [] {
      IntersectionWithEmpty(a[1..]);
    }
  }

  lemma StaleFix(unite: Unite)
    ensures Fix([[1, 2], [2, 3], [1, 4]], unite) == [unite([1, 2], [1, 4]), [], []]
  {
    var u := unite([1, 2], [1, 4]);
    StaleFirstPass(unite);
    StaleSecondPass(unite);
    assert Fix([u, [], []], unite) == [u, [], []];
  }

  /** The whole simplification of `[[1, 2], [2, 3], [1, 4]]`, for any union operation. */
  lemma StaleSimplified(unite: Unite)
    ensures var u := unite([1, 2], [1, 4]);
            && Filter(Fix([[1, 2], [2, 3], [1, 4]], unite), IsGroup) == [u]
            && 3 !in u
  {
    var u := unite([1, 2], [1, 4]);
    StaleUnion(unite);
    StaleFix(unite);
    var empties: seq<MergeGroup> := [[], []];
    assert Filter(empties[1..], IsGroup) == [];
    assert Filter(empties, IsGroup) == [];
    assert [u, [], []][1..] == empties;
  }

  lemma StaleUnion(unite: Unite)
    ensures IsGroup(unite([1, 2], [1, 4])) && 3 !in unite([1, 2], [1, 4])
  {
    var u := unite([1, 2], [1, 4]);
    UniteMembers(unite, [1, 2], [1, 4], 3);
    UniteMembers(unite, [1, 2], [1, 4], 1);
    UniteMembers(unite, [1, 2], [1, 4], 2);
    var a :| 0 <= a < |u| && u[a] == 1;
    var b :| 0 <= b < |u| && u[b] == 2;
    assert a != b;
  }

  /**
   * The group read at line 116 is not re-read after group `i` changes, so a
   * later union starts again from it: in `[[1, 2], [2, 3], [1, 4]]` group 0
   * first becomes the union with `[2, 3]` and is then overwritten by the
   * union of `[1, 2]` with `[1, 4]`, and unit 3 leaves every group.
   */
  lemma StaleGroupLosesMember()
    ensures var mg := [[1, 2], [2, 3], [1, 4]];
            && Simplified(mg) == [Union([1, 2], [1, 4])]
            && 3 in Members(mg) && 3 !in Members(Simplified(mg))
  {
    var mg: seq<MergeGroup> := [[1, 2], [2, 3], [1, 4]];
    StaleSimplified(UnionOp);
    assert 3 in mg[1];
  }

  /** Simplifying two groups that share a unit, for any union operation. */
  lemma TwoGroupsFix(unite: Unite)
    ensures Fix([[1, 2], [2, 3]], unite) == [unite([1, 2], [2, 3]), []]
  {
    var mg: seq<MergeGroup> := [[1, 2], [2, 3]];
    var u := unite([1, 2], [2, 3]);
    var fixed: seq<MergeGroup> := [u, []];
    assert Intersection([1, 2], [2, 3]) == [2];
    assert mg[0 := u][1 := []] == fixed;
    assert InnerPass(fixed, 0, [1, 2], 2, true, unite) == (fixed, true);
    assert InnerPass(mg, 0, [1, 2], 1, false, unite) == (fixed, true);
    assert InnerPass(fixed, 1, [], 2, true, unite) == (fixed, true);
    assert OuterPass(fixed, 2, true, unite) == (fixed, true);
    assert OuterPass(fixed, 1, true, unite) == (fixed, true);
    assert OuterPass(mg, 0, false, unite) == (fixed, true);
    TwoGroupsStable(unite, u);
  }

  lemma TwoGroupsStable(unite: Unite, u: MergeGroup)
    ensures OuterPass([u, []], 0, false, unite) == ([u, []], false)
  {
    var fixed: seq<MergeGroup> := [u, []];
    IntersectionWithEmpty(u);
    assert InnerPass(fixed, 0, u, 2, false, unite) == (fixed, false);
    assert InnerPass(fixed, 0, u, 1, false, unite) == (fixed, false);
    assert InnerPass(fixed, 1, [], 2, false, unite) == (fixed, false);
    assert OuterPass(fixed, 2, false, unite) == (fixed, false);
    assert OuterPass(fixed, 1, false, unite) == (fixed, false);
  }

  lemma DecimalOneTwoThree()
    ensures IntToString(1) == "1" && IntToString(2) == "2" && IntToString(3) == "3"
  {
  }

  lemma SortOneTwo()
    ensures SortByKey([1, 2], IntToString) == [1, 2]
  {
    DecimalOneTwoThree();
    var s: seq<UnitId> := [1, 2];
    assert s[..1] == [1] && [1][..0] == [];
    assert SortByKey([1], IntToString) == [1];
    assert !StrLess("2", "1");
  }

  lemma SortOneTwoThree()
    ensures SortByKey([1, 2, 3], IntToString) == [1, 2, 3]
  {
    DecimalOneTwoThree();
    SortOneTwo();
    var s: seq<UnitId> := [1, 2, 3];
    assert s[..2] == [1, 2];
    assert !StrLess("3", "1") && !StrLess("3", "2");
    assert InsertByKey(3, [2], IntToString) == [2, 3];
  }

  lemma UnionOneTwoThree()
    ensures Union([1, 2], [2, 3]) == [1, 2, 3]
  {
    var notInFirst := (x: UnitId) => x !in [1, 2];
    assert Filter([2, 3], notInFirst) == [3] by {
      assert [2, 3][1..] == [3];
      assert Filter([3], notInFirst) == [3];
    }
    assert [1, 2] + [3] == [1, 2, 3];
    SortOneTwoThree();
  }

  lemma SingleGroupSimplified()
    ensures Simplified([[1, 2]]) == [[1, 2]]
  {
    var mg: seq<MergeGroup> := [[1, 2]];
    assert InnerPass(mg, 0, [1, 2], 1, false, UnionOp) == (mg, false);
    assert OuterPass(mg, 0, false, UnionOp) == (mg, false);
    assert Fix(mg, UnionOp) == mg;
  }

  lemma TwoGroupsSimplified()
    ensures Simplified([[1, 2], [2, 3]]) == [[1, 2, 3]]
  {
    TwoGroupsFix(UnionOp);
    UnionOneTwoThree();
    var u: MergeGroup := [1, 2, 3];
    assert Filter([[]], IsGroup) == [];
    assert [u, []][1..] == [[]];
    assert Filter([u, []], IsGroup) == [u];
  }

  /**
   * From a curation without merge groups, merging units 1 and 2 and then
   * units 2 and 3 leaves the single group `[1, 2, 3]`.
   */
  lemma MergeTwiceExample(state: SortingCuration)
    requires MergeGroupsOf(state) == []
    ensures var once := SortingCurationReducer(state, MergeUnits([1, 2]));
            var twice := SortingCurationReducer(once, MergeUnits([2, 3]));
            twice.mergeGroups == Some([[1, 2, 3]])
  {
    FirstMerge(state);
    SecondMerge(SortingCurationReducer(state, MergeUnits([1, 2])));
  }

  lemma FirstMerge(state: SortingCuration)
    requires MergeGroupsOf(state) == []
    ensures MergeGroupsOf(SortingCurationReducer(state, MergeUnits([1, 2]))) == [[1, 2]]
  {
    MergeUnitsGroups(state, [1, 2]);
    assert MergeGroupsOf(state) + [[1, 2]] == [[1, 2]];
    SingleGroupSimplified();
  }

  lemma SecondMerge(state: SortingCuration)
    requires MergeGroupsOf(state) == [[1, 2]]
    ensures SortingCurationReducer(state, MergeUnits([2, 3])).mergeGroups == Some([[1, 2, 3]])
  {
    MergeUnitsGroups(state, [2, 3]);
    assert MergeGroupsOf(state) + [[2, 3]] == [[1, 2], [2, 3]];
    TwoGroupsSimplified();
  }

  /**
   * After the merges of `MergeTwiceExample`, unmerging unit 2 leaves the
   * group `[1, 3]`, and unmerging units 1 and 3 then leaves no group.
   */
  lemma UnmergeExample(state: SortingCuration)
    requires MergeGroupsOf(state) == [[1, 2, 3]]
    ensures var once := SortingCurationReducer(state, UnmergeUnits([2]));
            var twice := SortingCurationReducer(once, UnmergeUnits([1, 3]));
            once.mergeGroups == Some([[1, 3]]) && twice.mergeGroups == Some([])
  {
    var once := SortingCurationReducer(state, UnmergeUnits([2]));
    UnmergeOne(state);
    UnmergeRest(once);
  }

  lemma UnmergeOne(state: SortingCuration)
    requires MergeGroupsOf(state) == [[1, 2, 3]]
    ensures SortingCurationReducer(state, UnmergeUnits([2])).mergeGroups == Some([[1, 3]])
  {
    var gs := MergeGroupsOf(state);
    var stripped := StripUnits(gs, [2]);
    assert WithoutUnits([1, 2, 3], [2]) == [1, 3] by {
      assert [1, 2, 3][1..] == [2, 3] && [2, 3][1..] == [3] && [3][1..] == [];
    }
    assert stripped == [[1, 3]];
    assert Filter(stripped, IsGroup) == [[1, 3]] by {
      FilterAll(stripped, IsGroup);
    }
  }

  lemma UnmergeRest(state: SortingCuration)
    requires MergeGroupsOf(state) == [[1, 3]]
    ensures SortingCurationReducer(state, UnmergeUnits([1, 3])).mergeGroups == Some([])
  {
    var gs := MergeGroupsOf(state);
    var stripped := StripUnits(gs, [1, 3]);
    assert WithoutUnits([1, 3], [1, 3]) == [] by {
      assert [1, 3][1..] == [3] && [3][1..] == [];
    }
    assert stripped == [[]];
    assert Filter(stripped, IsGroup) == [] by {
      assert stripped[1..] == [];
    }
  }

  lemma MergeUnitsGroups(state: SortingCuration, unitIds: seq<UnitId>)
    ensures SortingCurationReducer(state, MergeUnits(unitIds)).mergeGroups ==
            Some(Simplified(MergeGroupsOf(state) + [unitIds]))
  {
  }
}


=== FILE: decimal.dfy ===
/**
 * Integers as decimal strings: `n + ''` (and the string conversion that
 * `Array.prototype.sort` applies to numbers), and `parseInt(s)` for
 * decimal input.
 */
module Decimal {
  import opened JsValues

  predicate IsDigit(c: char) {
    '0' <= c <= '9'
  }

  function DigitChar(d: nat): (c: char)
    requires d < 10
    ensures IsDigit(c)
  {
    ('0' as int + d) as char
  }

  function DigitValue(c: char): (d: nat)
    requires IsDigit(c)
    ensures d < 10 && DigitChar(d) == c
  {
    c as int - '0' as int
  }

  /** The decimal digits of `n`, without leading zeros. */
  function NatToString(n: nat): (s: string)
    ensures |s| >= 1
    ensures forall i :: 0 <= i < |s| ==> IsDigit(s[i])
  {
    if n < 10 then [DigitChar(n)] else NatToString(n / 10) + [DigitChar(n % 10)]
  }

  /** `n + ''` for an integer `n`. */
  function IntToString(n: int): (s: string)
    ensures |s| >= 1
    ensures s[0] == '-' <==> n < 0
    ensures forall i :: 0 < i < |s| ==> IsDigit(s[i])
  {
    if n < 0 then "-" + NatToString(-n) else NatToString(n)
  }

  /** The number of leading decimal digits of `s`. */
  function DigitPrefixLength(s: string): (k: nat)
    ensures k <= |s|
    ensures forall i :: 0 <= i < k ==> IsDigit(s[i])
    ensures k == |s| || !IsDigit(s[k])
  {
    if s == [] || !IsDigit(s[0]) then 0 else 1 + DigitPrefixLength(s[1..])
  }

  /** The value of a string of decimal digits. */
  function DigitsValue(s: string): nat
    requires forall i :: 0 <= i < |s| ==> IsDigit(s[i])
  {
    if s == [] then 0 else DigitsValue(s[..|s| - 1]) * 10 + DigitValue(s[|s| - 1])
  }

  /** The value of the leading digits of `s`, or `None` (`NaN`) when there are none. */
  function ParseDigits(s: string): Option<nat> {
    var k := DigitPrefixLength(s);
    if k == 0 then None else Some(DigitsValue(s[..k]))
  }

  /**
   * `parseInt(s)`: an optional sign followed by the longest run of decimal
   * digits; `None` stands for `NaN`.
   */
  function ParseInt(s: string): (r: Option<int>)
    ensures r.None? ==> DigitPrefixLength(s) == 0
    ensures |s| > 0 && IsDigit(s[0]) ==> r.Some? && r.value >= 0
  {
    if |s| > 0 && s[0] == '-' then
      match ParseDigits(s[1..])
      case None => None
      case Some(v) => Some(-(v as int))
    else if |s| > 0 && s[0] == '+' then
      match ParseDigits(s[1..])
      case None => None
      case Some(v) => Some(v)
    else
      match ParseDigits(s)
      case None => None
      case Some(v) => Some(v)
  }

  lemma {:induction false} NatToStringValue(n: nat)
    ensures DigitsValue(NatToString(n)) == n
  {
    if n >= 10 {
      var s := NatToString(n);
      NatToStringValue(n / 10);
      assert s[..|s| - 1] == NatToString(n / 10);
    }
  }

  /** Reading back the decimal string of an integer gives the integer. */
  lemma ParseIntToString(n: int)
    ensures ParseInt(IntToString(n)) == Some(n)
  {
    var m := if n < 0 then -n else n;
    var d := NatToString(m);
    NatToStringValue(m);
    assert DigitPrefixLength(d) == |d|;
    assert d[..|d|] == d;
    if n < 0 {
      assert IntToString(n)[1..] == d;
    }
  }

  /** Different integers have different decimal strings. */
  lemma IntToStringInjective(a: int, b: int)
    requires IntToString(a) == IntToString(b)
    ensures a == b
  {
    ParseIntToString(a);
    ParseIntToString(b);
  }

  /** Different integers have different decimal strings, stated the other way round. */
  lemma IntToStringDistinct(a: int, b: int)
    requires a != b
    ensures IntToString(a) != IntToString(b)
  {
    ParseIntToString(a);
    ParseIntToString(b);
  }
}

=== FILE: electrode_geometry.dfy ===
/**
 * The electrode list of the Jupyter electrode-geometry view
 * (`jupyterlab/labbox_ephys_widgets_jp/src/extensions/electrodegeometry/electrodegeometry.tsx`):
 * the channel ids of a recording zipped with their locations.
 *
 * `null` or `undefined` arrays are `None`; a coordinate read past the end of
 * a location (`loc[1]` of a one-element location) is `undefined`, also `None`.
 */
module ElectrodeGeometry {
  import opened JsValues
  import opened Decimal

  /** `{label, x, y}`: one electrode as the widget draws it (`label` is a reserved word here). */
  datatype Electrode = Electrode(labelText: string, x: Option<real>, y: Option<real>)

  /** The fields of `recordingInfo` that the view reads. */
  datatype RecordingInfo = RecordingInfo(geom: Option<seq<seq<real>>>, channelIds: Option<seq<int>>)

  /** The message thrown on a count mismatch (line 9). */
  const CountMismatch: string := "Electrode ID count does not match location count."

  /** `loc[k]`: `undefined` past the end of `loc`. */
  function Coordinate(loc: seq<real>, k: nat): (c: Option<real>)
    ensures c.Some? <==> k < |loc|
    ensures c.Some? ==> c.value == loc[k]
  {
    if k < |loc| then Some(loc[k]) else None
  }

  /**
   * `zipElectrodes(locations, ids)` (lines 8-14). Both arrays present with
   * different lengths throw the count-mismatch error; a missing `ids` makes
   * `ids.map` throw a `TypeError`, and so does a missing `locations` as soon
   * as there is an id to look up. Otherwise electrode `i` is labelled with
   * the decimal form of `ids[i]` and placed at `locations[i]`.
   */
  function ZipElectrodes(locations: Option<seq<seq<real>>>, ids: Option<seq<int>>)
    : (r: Result<seq<Electrode>>)
    ensures r == Thrown(Error(CountMismatch)) <==>
      locations.Some? && ids.Some? && |ids.value| != |locations.value|
    ensures r.Ok? <==>
      ids.Some? && (if locations.Some? then |ids.value| == |locations.value| else ids.value == [])
    ensures r.Ok? ==> |r.value| == |ids.value|
    ensures r.Ok? ==> forall i :: 0 <= i < |r.value| ==>
      r.value[i].labelText == IntToString(ids.value[i]) &&
      r.value[i].x == Coordinate(locations.value[i], 0) &&
      r.value[i].y == Coordinate(locations.value[i], 1)
  {
    if locations.Some? && ids.Some? && |ids.value| != |locations.value| then
      Thrown(Error(CountMismatch))
    else if ids.None? then
      Thrown(TypeError)
    else if locations.None? then
      if ids.value == [] then Ok([]) else Thrown(TypeError)
    else
      var ids, locations := ids.value, locations.value;
      Ok(seq(|ids|, i requires 0 <= i < |ids| =>
        Electrode(IntToString(ids[i]), Coordinate(locations[i], 0), Coordinate(locations[i], 1))))
  }

  /**
   * The labels read back as the channel ids: `parseInt` of electrode `i`'s
   * label is `ids[i]`, and two electrodes share a label only if they share
   * an id.
   */
  lemma LabelsIdentifyChannels(locations: Option<seq<seq<real>>>, ids: Option<seq<int>>)
    requires ZipElectrodes(locations, ids).Ok?
    ensures forall i :: 0 <= i < |ids.value| ==>
      ParseInt(ZipElectrodes(locations, ids).value[i].labelText) == Some(ids.value[i])
    ensures forall i, j :: 0 <= i < |ids.value| && 0 <= j < |ids.value| ==>
      (ZipElectrodes(locations, ids).value[i].labelText == ZipElectrodes(locations, ids).value[j].labelText <==>
       ids.value[i] == ids.value[j])
  {
    var r := ZipElectrodes(locations, ids).value;
    forall i | 0 <= i < |ids.value| ensures ParseInt(r[i].labelText) == Some(ids.value[i]) {
      ParseIntToString(ids.value[i]);
    }
  }

  /**
   * The electrodes of the recording view (line 18): none without recording
   * info, otherwise the zip of its locations and channel ids.
   */
  function Electrodes(ri: Option<RecordingInfo>): (r: Result<seq<Electrode>>)
    ensures ri.None? ==> r == Ok([])
    ensures ri.Some? ==> r == ZipElectrodes(ri.value.geom, ri.value.channelIds)
  {
    match ri
    case None => Ok([])
    case Some(info) => ZipElectrodes(info.geom, info.channelIds)
  }
}

=== FILE: grid.dfy ===
/**
 * The square grid of cross-correlogram plots shared by
 * `CrossCorrelograms.tsx` and `CrossCorrelograms.js`: the plot width that
 * fits a row of plots into the view, the start index of every row in the
 * row-major list of unit pairs, and the rows cut at those indices.
 *
 * Widths are whole pixels.
 */
module Grid {
  import opened Seqs

  /** `{xkey: unitId, ykey: unitId}`: the plot of unit `xkey` against unit `ykey`. */
  datatype Pair = Pair(xkey: int, ykey: int)

  /** The integer quotient and remainder of `q * n + j` by `n` are `q` and `j`. */
  lemma DivMod(q: int, n: int, j: int)
    requires 0 <= j < n
    ensures (q * n + j) / n == q
    ensures (q * n + j) % n == j
  {
    var k := q * n + j;
    var q' := k / n;
    var j' := k % n;
    assert k == q' * n + j';
    assert (q - q') * n == j' - j;
    if q - q' > 0 {
      MulAtLeast(q - q', n);
    } else if q - q' < 0 {
      MulAtLeast(q' - q, n);
    }
  }

  /** An index below `m` blocks of `n` lies in one of the first `m` blocks. */
  lemma QuotientBelow(k: nat, n: nat, m: nat)
    requires n > 0 && k < m * n
    ensures k / n < m
  {
    var q := k / n;
    assert q * n <= k;
    if q >= m {
      MulMonotone(m, q, n);
    }
  }

  /** An index below `n * n` is `i * n + j` for a row `i` and a column `j`. */
  lemma Decompose(k: nat, n: nat) returns (i: nat, j: nat)
    requires k < n * n
    ensures i < n && j < n && k == i * n + j
  {
    i, j := k / n, k % n;
    QuotientBelow(k, n, n);
  }

  lemma MulAtLeast(a: int, n: int)
    requires a >= 1 && n >= 0
    ensures a * n >= n
  {
  }

  /**
   * `xs.reduce((list, x) => list.concat(f(x)), [])`: the sequences `f(x)`
   * of the elements of `xs`, one after the other.
   */
  function FlatMap<A, B>(xs: seq<A>, f: A -> seq<B>): seq<B> {
    if xs == [] then [] else FlatMap(xs[..|xs| - 1], f) + f(xs[|xs| - 1])
  }

  lemma {:induction false} FlatMapLength<A, B>(xs: seq<A>, f: A -> seq<B>, n: nat)
    requires forall i :: 0 <= i < |xs| ==> |f(xs[i])| == n
    ensures |FlatMap(xs, f)| == |xs| * n
  {
    if xs != [] {
      var m := |xs| - 1;
      FlatMapLength(xs[..m], f, n);
      assert |xs| * n == m * n + n;
    }
  }

  /** Flattening a prefix of `xs` gives a prefix of the flattened `xs`. */
  lemma {:induction false} FlatMapPrefix<A, B>(xs: seq<A>, f: A -> seq<B>, i: nat)
    requires i <= |xs|
    ensures FlatMap(xs[..i], f) <= FlatMap(xs, f)
  {
    if i < |xs| {
      var m := |xs| - 1;
      assert xs[..i] == xs[..m][..i];
      FlatMapPrefix(xs[..m], f, i);
    } else {
      assert xs[..i] == xs;
    }
  }

  /**
   * When every `f(x)` has `n` elements, the flattened sequence is in
   * row-major order: its `i`-th block of `n` elements is `f(xs[i])`.
   */
  lemma FlatMapBlock<A, B>(xs: seq<A>, f: A -> seq<B>, n: nat, i: nat)
    requires forall i :: 0 <= i < |xs| ==> |f(xs[i])| == n
    requires i < |xs|
    ensures i * n + n <= |FlatMap(xs, f)|
    ensures FlatMap(xs, f)[i * n..i * n + n] == f(xs[i])
  {
    var before := FlatMap(xs[..i], f);
    var through := FlatMap(xs[..i + 1], f);
    assert xs[..i + 1][..i] == xs[..i];
    assert through == before + f(xs[i]);
    FlatMapPrefix(xs, f, i + 1);
    FlatMapLength(xs[..i], f, n);
    assert through[|before|..|before| + n] == f(xs[i]);
  }

  /**
   * `Math.min(maxSize, Math.floor((width - margin * (n + 1)) / n))`: the
   * widest whole-pixel plot such that `n` plots and `n + 1` margins fit into
   * `width`, capped at `maxSize`.
   */
  function PlotWidth(width: int, margin: int, n: int, maxSize: int): (w: int)
    requires n >= 1
    ensures w <= maxSize
    ensures w * n + margin * (n + 1) <= width
    ensures w == maxSize || width < (w + 1) * n + margin * (n + 1)
  {
    var fit := (width - margin * (n + 1)) / n;
    if maxSize < fit then maxSize else fit
  }

  /**
   * A narrower plot still fits and a wider one does not: the width is the
   * largest that fits whenever it is below the cap.
   */
  lemma PlotWidthMaximal(width: int, margin: int, n: int, maxSize: int, w: int)
    requires n >= 1
    ensures w <= PlotWidth(width, margin, n, maxSize) ==> w * n + margin * (n + 1) <= width
    ensures PlotWidth(width, margin, n, maxSize) < w <= maxSize ==> width < w * n + margin * (n + 1)
  {
    var p := PlotWidth(width, margin, n, maxSize);
    if w <= p {
      assert w * n <= p * n by {
        MulMonotone(w, p, n);
      }
    }
    if p < w <= maxSize {
      assert width < (p + 1) * n + margin * (n + 1);
      assert (p + 1) * n <= w * n by {
        MulMonotone(p + 1, w, n);
      }
    }
  }

  lemma MulMonotone(a: int, b: int, n: int)
    requires a <= b && n >= 0
    ensures a * n <= b * n
  {
    assert b * n - a * n == (b - a) * n;
  }

  /** `i => i % n === 0`: `NaN` is never `0`, so nothing passes when `n` is `0`. */
  function DivisibleBy(n: nat): nat -> bool {
    i => n != 0 && i % n == 0
  }

  /** The indices `lo, lo + 1, ..., hi - 1`. */
  function Interval(lo: nat, hi: nat): (r: seq<nat>)
    requires lo <= hi
    ensures |r| == hi - lo
    ensures forall i :: 0 <= i < hi - lo ==> r[i] == lo + i
  {
    seq(hi - lo, i requires 0 <= i < hi - lo => lo + i)
  }

  /**
   * `rowBounds`, `[...Array(len).keys()].filter(i => i % n === 0)`: the
   * indices below `len` at which a row of `n` plots starts.
   */
  function RowBounds(len: nat, n: nat): (r: seq<nat>)
    ensures forall i: nat :: i in r <==> i < len && n != 0 && i % n == 0
  {
    forall i: nat | i < len ensures i in Range(len) {
      assert Range(len)[i] == i;
    }
    assert forall i: nat :: DivisibleBy(n)(i) == (n != 0 && i % n == 0);
    Filter(Range(len), DivisibleBy(n))
  }

  /** The first `m` multiples of `n`: `0, n, 2n, ..., (m - 1)n`. */
  function Multiples(m: nat, n: nat): (r: seq<nat>)
    ensures |r| == m
    ensures forall i :: 0 <= i < m ==> r[i] == i * n
  {
    seq(m, i requires 0 <= i < m => i * n)
  }

  /**
   * For `m * n` pairs, `rowBounds` is exactly the first `m` multiples of
   * `n`, in increasing order: one bound per row.
   */
  lemma {:induction false} RowBoundsMultiples(m: nat, n: nat)
    requires n > 0
    ensures RowBounds(m * n, n) == Multiples(m, n)
  {
    if m > 0 {
      var k := (m - 1) * n;
      assert m * n == k + n;
      DivMod(m - 1, n, 0);
      RowBoundsMultiples(m - 1, n);
      RowBoundsStep(k, n);
      MultiplesSnoc(m, n);
    }
  }

  lemma MultiplesSnoc(m: nat, n: nat)
    requires m > 0
    ensures Multiples(m, n) == Multiples(m - 1, n) + [(m - 1) * n]
  {
  }

  /** One more row of `n` adds exactly its first index to the row bounds. */
  lemma RowBoundsStep(k: nat, n: nat)
    requires n > 0 && k % n == 0
    ensures RowBounds(k + n, n) == RowBounds(k, n) + [k]
  {
    var p := DivisibleBy(n);
    var rest := Interval(k + 1, k + n);
    RangeSplit(k, n);
    FilterAppend(Range(k) + [k], rest, p);
    FilterAppend(Range(k), [k], p);
    assert Filter([k], p) == [k];
    RowInteriorFails(k, n);
  }

  lemma RangeSplit(k: nat, n: nat)
    requires n > 0
    ensures Range(k + n) == Range(k) + [k] + Interval(k + 1, k + n)
  {
  }

  /** No index inside a row passes the `rowBounds` filter. */
  lemma RowInteriorFails(k: nat, n: nat)
    requires n > 0 && k % n == 0
    ensures Filter(Interval(k + 1, k + n), DivisibleBy(n)) == []
  {
    var rest := Interval(k + 1, k + n);
    var p := DivisibleBy(n);
    forall t | 0 <= t < |rest| ensures !p(rest[t]) {
      DivMod(k / n, n, t + 1);
      assert rest[t] == k / n * n + (t + 1);
    }
    FilterNone(rest, p);
  }

  /**
   * `rowBounds.map(start => pairs.slice(start, start + n))`: the rows of the
   * grid.
   */
  function Rows<T>(pairs: seq<T>, bounds: seq<nat>, n: nat): (r: seq<seq<T>>)
    ensures |r| == |bounds|
    ensures forall i :: 0 <= i < |r| ==> r[i] == Slice(pairs, bounds[i], bounds[i] + n)
  {
    seq(|bounds|, i requires 0 <= i < |bounds| => Slice(pairs, bounds[i], bounds[i] + n))
  }

  /**
   * Cutting `n * n` items at the row bounds gives `n` rows of `n` items,
   * row `i` holding items `i * n` to `i * n + n - 1`.
   */
  lemma SquareRows<T>(items: seq<T>, n: nat)
    requires |items| == n * n
    ensures RowBounds(|items|, n) == Multiples(n, n)
    ensures forall i :: 0 <= i < n ==>
      i * n + n <= |items| && Rows(items, Multiples(n, n), n)[i] == items[i * n..i * n + n]
  {
    if n > 0 {
      RowBoundsMultiples(n, n);
      forall i | 0 <= i < n
        ensures i * n + n <= |items| && Rows(items, Multiples(n, n), n)[i] == items[i * n..i * n + n]
      {
        RowAt(items, n, i);
      }
    } else {
      assert Range(0) == [];
    }
  }

  lemma RowAt<T>(items: seq<T>, n: nat, i: nat)
    requires i < n && |items| == n * n
    ensures i * n + n <= |items|
    ensures Rows(items, Multiples(n, n), n)[i] == items[i * n..i * n + n]
  {
    MulMonotone(i + 1, n, n);
  }
}

=== FILE: individual_units.dfy ===
/**
 * The list of units shown by the individual-units view
 * (`src/pluginComponents/IndividualUnits/IndividualUnits.tsx`): the selected
 * units of the sorting, cut to `maxUnitsVisible` entries with a "Show more"
 * button that raises the cut by four.
 *
 * `selectedUnitIds` is an object from unit-id keys to flags; its entries are
 * given in `Object.keys` order.
 */
module IndividualUnits {
  import opened JsValues
  import opened Seqs
  import opened Decimal

  /** One entry of `selectedUnitIds`: a key and whether its flag is truthy. */
  datatype SelectionFlag = SelectionFlag(key: string, flag: bool)

  /** `maxUnitsVisibleIncrement` (line 15). */
  const MaxUnitsVisibleIncrement: nat := 4

  /** The initial `maxUnitsVisible` (line 16). */
  const InitialMaxUnitsVisible: nat := 4

  /** Unit `u` is listed: some truthy key reads as `u`, a unit of the sorting. */
  predicate Listed(entries: seq<SelectionFlag>, unitIds: seq<int>, u: int) {
    u in unitIds && exists i :: 0 <= i < |entries| && entries[i].flag && ParseInt(entries[i].key) == Some(u)
  }

  /**
   * The first value of `selectedUnitIdsArray` (lines 19-22): the keys whose
   * flag is truthy and whose `parseInt` is a unit id of the sorting, read as
   * numbers, in key order. A key `parseInt` cannot read is `NaN`, which
   * `includes` never finds.
   */
  function SelectedUnitIds(entries: seq<SelectionFlag>, unitIds: seq<int>): (r: seq<int>)
    ensures |r| <= |entries|
    ensures forall u :: u in r <==> Listed(entries, unitIds, u)
  {
    if entries == [] then []
    else
      var rest := SelectedUnitIds(entries[1..], unitIds);
      var e := entries[0];
      var r := if e.flag && ParseInt(e.key).Some? && ParseInt(e.key).value in unitIds
        then [ParseInt(e.key).value] + rest else rest;
      assert forall u :: u in r <==> Listed(entries, unitIds, u) by {
        forall u ensures u in r <==> Listed(entries, unitIds, u) {
          if Listed(entries[1..], unitIds, u) {
            var i :| 0 <= i < |entries[1..]| && entries[1..][i].flag && ParseInt(entries[1..][i].key) == Some(u);
            assert entries[i + 1] == entries[1..][i];
          }
          if Listed(entries, unitIds, u) {
            var i :| 0 <= i < |entries| && entries[i].flag && ParseInt(entries[i].key) == Some(u);
            if i > 0 {
              assert entries[1..][i - 1] == entries[i];
            }
          }
        }
      }
      r
  }

  /** The ids come out in the order of their keys: the list distributes over concatenation. */
  lemma {:induction false} SelectedUnitIdsInOrder(a: seq<SelectionFlag>, b: seq<SelectionFlag>, unitIds: seq<int>)
    ensures SelectedUnitIds(a + b, unitIds) == SelectedUnitIds(a, unitIds) + SelectedUnitIds(b, unitIds)
  {
    if a != [] {
      assert (a + b)[1..] == a[1..] + b;
      assert (a + b)[0] == a[0];
      SelectedUnitIdsInOrder(a[1..], b, unitIds);
    } else {
      assert a + b == b;
    }
  }

  /**
   * Lines 24-28: `selectedUnitIdsArray` cut to its first `maxUnitsVisible`
   * units, and `showExpandButton`, set exactly when something was cut.
   */
  function ShownUnits(entries: seq<SelectionFlag>, unitIds: seq<int>, maxUnitsVisible: nat)
    : (r: (seq<int>, bool))
    ensures r.0 <= SelectedUnitIds(entries, unitIds)
    ensures |r.0| <= maxUnitsVisible
    ensures r.1 <==> |SelectedUnitIds(entries, unitIds)| > maxUnitsVisible
    ensures !r.1 ==> r.0 == SelectedUnitIds(entries, unitIds)
    ensures forall u :: u in r.0 ==> Listed(entries, unitIds, u)
  {
    Truncate(SelectedUnitIds(entries, unitIds), maxUnitsVisible)
  }

  /** What follows the units (lines 64-73). */
  datatype Footer = ShowMoreButton | SelectPlaceholder | NoFooter

  /**
   * The "Show more selected units" button when units were cut; otherwise the
   * "Select one or more units" placeholder for an empty list, and nothing
   * for a non-empty one.
   */
  function FooterOf(shown: seq<int>, showExpandButton: bool): (f: Footer)
    ensures f == ShowMoreButton <==> showExpandButton
    ensures f == SelectPlaceholder <==> !showExpandButton && shown == []
  {
    if showExpandButton then ShowMoreButton
    else if |shown| == 0 then SelectPlaceholder
    else NoFooter
  }

  /** A click on "Show more" (line 67): four more units are allowed. */
  function ShowMore(maxUnitsVisible: nat): (m: nat)
    ensures m > maxUnitsVisible
  {
    maxUnitsVisible + MaxUnitsVisibleIncrement
  }

  /** `maxUnitsVisible` after `clicks` clicks on "Show more". */
  function MaxAfterClicks(clicks: nat): nat {
    if clicks == 0 then InitialMaxUnitsVisible else ShowMore(MaxAfterClicks(clicks - 1))
  }

  /** `maxUnitsVisible` is always a positive multiple of four: four per click, plus the first four. */
  lemma {:induction false} MaxAfterClicksValue(clicks: nat)
    ensures MaxAfterClicks(clicks) == 4 * (clicks + 1)
  {
    if clicks > 0 {
      MaxAfterClicksValue(clicks - 1);
    }
  }

  /**
   * A click keeps the units already shown, in place, and shows up to four
   * more: the first `min(n, maxUnitsVisible + 4)` selected units, where `n`
   * units are selected.
   */
  lemma ShowMoreExtends(entries: seq<SelectionFlag>, unitIds: seq<int>, maxUnitsVisible: nat)
    ensures ShownUnits(entries, unitIds, maxUnitsVisible).0 <= ShownUnits(entries, unitIds, ShowMore(maxUnitsVisible)).0
    ensures ShownUnits(entries, unitIds, maxUnitsVisible).1 ==>
      |ShownUnits(entries, unitIds, ShowMore(maxUnitsVisible)).0| ==
        if |SelectedUnitIds(entries, unitIds)| < ShowMore(maxUnitsVisible) then |SelectedUnitIds(entries, unitIds)|
        else ShowMore(maxUnitsVisible)
  {
    var full := SelectedUnitIds(entries, unitIds);
    var before := ShownUnits(entries, unitIds, maxUnitsVisible).0;
    var after := ShownUnits(entries, unitIds, ShowMore(maxUnitsVisible)).0;
    assert before == full[..|before|];
    assert after == full[..|after|];
  }

  /**
   * Enough clicks show every selected unit: once `maxUnitsVisible` reaches
   * their number, the button is gone and the whole list is shown.
   */
  lemma ClicksShowAll(entries: seq<SelectionFlag>, unitIds: seq<int>, clicks: nat)
    requires |SelectedUnitIds(entries, unitIds)| <= 4 * (clicks + 1)
    ensures ShownUnits(entries, unitIds, MaxAfterClicks(clicks)) == (SelectedUnitIds(entries, unitIds), false)
  {
    MaxAfterClicksValue(clicks);
  }
}

=== FILE: js_values.dfy ===
/**
 * The few distinctions of the JavaScript data model that the modelled code
 * makes: properties that may be absent, properties typed `T | null`, and
 * thrown errors.
 */
module JsValues {

  /** An optional property (`x?: T`): absent means `undefined`. */
  datatype Option<T> = None | Some(value: T) {
    /** `x || fallback` for a property whose present values are all truthy. */
    function GetOr(fallback: T): T {
      match this
      case Some(v) => v
      case None => fallback
    }
  }

  /** An optional property typed `T | null`: `undefined`, `null` or a value. */
  datatype Nullable<T> = Undefined | Null | Present(value: T)

  /** What a `throw` carries: an `Error(message)` or a `TypeError` raised by the engine. */
  datatype JsError = Error(message: string) | TypeError

  /** A computation that returns a value or throws. */
  datatype Result<T> = Ok(value: T) | Thrown(error: JsError)
}

=== FILE: kachery.dfy ===
/**
 * The string handling of the kachery feed client (`src/kachery/index.ts`):
 * reading a feed id out of a `feed://` uri, the query string that names a
 * feed in a page link, and the decision `appendMessages` takes before it
 * posts anything.
 */
module Kachery {
  import opened JsValues
  import opened Strings

  const FeedScheme: string := "feed://"
  const Sha1Scheme: string := "sha1://"
  const DefaultFeed: string := "default"

  /**
   * `feedIdFromUri(uri)` (lines 3-9): `null` unless `uri` starts with
   * `feed://`, otherwise the third `/`-separated piece of `uri`, which is the
   * text after `feed://` up to the next `/`.
   */
  function FeedIdFromUri(uri: string): (r: Option<string>)
    ensures r.None? <==> !StartsWith(uri, FeedScheme)
    ensures r.Some? ==> r.value == Split(uri[|FeedScheme|..], '/')[0]
    ensures r.Some? ==> '/' !in r.value
    ensures r.Some? ==> StartsWith(uri, FeedScheme + r.value)
    ensures r.Some? ==> |uri| == |FeedScheme| + |r.value| || uri[|FeedScheme| + |r.value|] == '/'
  {
    if !StartsWith(uri, FeedScheme) then None
    else
      SchemePieces(uri);
      Some(Split(uri, '/')[2])
  }

  /**
   * For a `feed://` uri, `split('/')` gives `feed:`, an empty piece, and then
   * the pieces of the text after `feed://`; the first of those ends at the
   * next `/`.
   */
  lemma SchemePieces(uri: string)
    requires StartsWith(uri, FeedScheme)
    ensures |Split(uri, '/')| >= 3
    ensures Split(uri, '/')[2] == Split(uri[|FeedScheme|..], '/')[0]
    ensures StartsWith(uri, FeedScheme + Split(uri, '/')[2])
    ensures var n := |FeedScheme| + |Split(uri, '/')[2]|; |uri| == n || uri[n] == '/'
  {
    var rest := uri[|FeedScheme|..];
    SchemeSplit(uri);
    SplitFirst(rest, '/');
    PrefixExtends(uri, FeedScheme, Split(rest, '/')[0]);
  }

  lemma SchemeSplit(uri: string)
    requires StartsWith(uri, FeedScheme)
    ensures |Split(uri, '/')| >= 3
    ensures Split(uri, '/')[2] == Split(uri[|FeedScheme|..], '/')[0]
  {
    var rest := uri[|FeedScheme|..];
    var after := uri[6..];
    assert uri == uri[..5] + ['/'] + after;
    assert '/' !in uri[..5];
    SplitPrefix(uri[..5], after, '/');
    assert after == [] + ['/'] + rest;
    SplitPrefix([], rest, '/');
  }

  /** A string that starts with `p` and continues with `q <= rest` starts with `p + q`. */
  lemma PrefixExtends(s: string, p: string, q: string)
    requires StartsWith(s, p) && q <= s[|p|..]
    ensures StartsWith(s, p + q)
  {
    assert s[..|p| + |q|] == s[..|p|] + s[|p|..][..|q|];
  }

  /** The id of `feed://` followed by `rest` is the first `/`-separated piece of `rest`. */
  lemma FeedIdOfRest(rest: string)
    ensures FeedIdFromUri(FeedScheme + rest) == Some(Split(rest, '/')[0])
  {
    var uri := FeedScheme + rest;
    assert uri[..|FeedScheme|] == FeedScheme;
    assert uri[|FeedScheme|..] == rest;
  }

  /** An id without `/` is read back from its `feed://` uri. */
  lemma FeedIdRoundTrip(id: string)
    requires '/' !in id
    ensures FeedIdFromUri(FeedScheme + id) == Some(id)
  {
    FeedIdOfRest(id);
    SplitNoSeparator(id, '/');
  }

  /** The id is read back from its `feed://` uri whatever path follows it. */
  lemma FeedIdWithPath(id: string, path: string)
    requires '/' !in id
    ensures FeedIdFromUri(FeedScheme + id + "/" + path) == Some(id)
  {
    FeedIdOfRest(id + "/" + path);
    SplitPrefix(id, path, '/');
    assert FeedScheme + id + "/" + path == FeedScheme + (id + "/" + path);
    assert id + "/" + path == id + ['/'] + path;
  }

  /**
   * `getPathQuery({feedUri})` (lines 25-28): nothing for the default feed or
   * a `null` feed, otherwise `?feed=` followed by the uri; an `undefined`
   * uri falls through `feedUri || ''` and gives `?feed=` alone.
   */
  function GetPathQuery(feedUri: Nullable<string>): (q: string)
    ensures q == "" <==> feedUri == Null || feedUri == Present(DefaultFeed)
    ensures feedUri == Undefined ==> q == "?feed="
    ensures q != "" ==> StartsWith(q, "?feed=") && q[|"?feed="|..] == (if feedUri.Present? then feedUri.value else "")
  {
    if feedUri == Present(DefaultFeed) || feedUri == Null then ""
    else "?feed=" + (if feedUri.Present? then feedUri.value else "")
  }

  /**
   * Two feeds other than the default get different queries, except that an
   * `undefined` uri and the empty uri both give `?feed=`.
   */
  lemma GetPathQueryInjective(a: Nullable<string>, b: Nullable<string>)
    requires GetPathQuery(a) == GetPathQuery(b) != ""
    ensures a == b || {a, b} == {Undefined, Present("")}
  {
    assert GetPathQuery(a)[|"?feed="|..] == (if a.Present? then a.value else "");
    assert GetPathQuery(b)[|"?feed="|..] == (if b.Present? then b.value else "");
  }

  /** What `appendMessages` does before its request. */
  datatype AppendRoute =
    | ReadOnlyFeed          // lines 70-74: logged and dropped
    | PostTo(feedId: string)  // lines 79-80: posted to this feed

  /**
   * The routing of `appendMessages` (lines 69-78): a `sha1://` feed is read
   * only and nothing is posted; `default` posts to the feed `default`; any
   * other uri posts to its feed id, and a uri without one (`null`, or the
   * empty id that `!feedId` rejects as well) throws.
   */
  function AppendRouteOf(feedUri: string): (r: Result<AppendRoute>)
    ensures r == Ok(ReadOnlyFeed) <==> StartsWith(feedUri, Sha1Scheme)
    ensures r.Thrown? <==>
      !StartsWith(feedUri, Sha1Scheme) && feedUri != DefaultFeed &&
      (FeedIdFromUri(feedUri).None? || FeedIdFromUri(feedUri) == Some(""))
    ensures r.Thrown? ==> r.error == Error("Unable to get feedId from uri: " + feedUri)
    ensures r.Ok? && r.value.PostTo? ==> r.value.feedId != ""
    ensures r == Ok(PostTo(DefaultFeed)) ==> feedUri == DefaultFeed || StartsWith(feedUri, FeedScheme)
    ensures feedUri == DefaultFeed ==> r == Ok(PostTo(DefaultFeed))
    ensures r.Ok? && r.value.PostTo? && feedUri != DefaultFeed ==> FeedIdFromUri(feedUri) == Some(r.value.feedId)
  {
    assert feedUri == DefaultFeed ==> !StartsWith(feedUri, Sha1Scheme) by {
      assert DefaultFeed[0] != Sha1Scheme[0];
    }
    if StartsWith(feedUri, Sha1Scheme) then Ok(ReadOnlyFeed)
    else
      var feedId := if feedUri == DefaultFeed then Some(DefaultFeed) else FeedIdFromUri(feedUri);
      if feedId.None? || feedId.value == "" then
        Thrown(Error("Unable to get feedId from uri: " + feedUri))
      else
        Ok(PostTo(feedId.value))
  }

  /** A message for `feed://id` is posted to `id` when the id is not empty. */
  lemma AppendToFeedId(id: string, path: string)
    requires '/' !in id && id != ""
    ensures AppendRouteOf(FeedScheme + id) == Ok(PostTo(id))
    ensures AppendRouteOf(FeedScheme + id + "/" + path) == Ok(PostTo(id))
  {
    FeedIdRoundTrip(id);
    FeedIdWithPath(id, path);
    assert !StartsWith(FeedScheme + id, Sha1Scheme) by {
      assert (FeedScheme + id)[0] == 'f';
    }
    assert !StartsWith(FeedScheme + id + "/" + path, Sha1Scheme) by {
      assert (FeedScheme + id + "/" + path)[0] == 'f';
    }
    assert FeedScheme + id != DefaultFeed by {
      assert (FeedScheme + id)[0] == 'f';
      assert DefaultFeed[0] == 'd';
    }
    assert FeedScheme + id + "/" + path != DefaultFeed by {
      assert (FeedScheme + id + "/" + path)[0] == 'f';
      assert DefaultFeed[0] == 'd';
    }
  }

  /** `feed://` with nothing after it names no feed, so appending to it throws. */
  lemma AppendToEmptyFeedIdThrows()
    ensures AppendRouteOf(FeedScheme).Thrown?
  {
    assert FeedScheme == FeedScheme + "";
    assert FeedScheme[0] == 'f';
    FeedIdRoundTrip("");
  }
}

=== FILE: plugins.dfy ===
/**
 * `filterObject` and `filterPlugins` (`src/extensions/extensionInterface.ts`,
 * lines 467-483): the registered plugins with the disabled and the
 * development ones removed.
 *
 * A JavaScript object used as a dictionary is a `map<string, T>`; `for..in`
 * visits its keys in an order the model does not fix, so the loop picks any
 * key not yet visited.
 */
module Plugins {
  import opened JsValues

  /** The fields of `LabboxPlugin` that the filtering reads. */
  datatype Plugin = Plugin(
    name: string,
    disabled: Option<bool>,
    development: Option<bool>
  )

  /** `Plugins`: the four registries, each keyed by plugin name. */
  datatype Plugins = Plugins(
    recordingViews: map<string, Plugin>,
    sortingViews: map<string, Plugin>,
    sortingUnitViews: map<string, Plugin>,
    sortingUnitMetrics: map<string, Plugin>
  )

  /** The entries of `x` whose value passes `filter`. */
  function Filtered<T>(x: map<string, T>, filter: T -> bool): (r: map<string, T>)
    ensures forall k :: k in r <==> k in x && filter(x[k])
    ensures forall k :: k in r ==> r[k] == x[k]
  {
    map k | k in x && filter(x[k]) :: x[k]
  }

  /** Filtering again with the same filter changes nothing. */
  lemma FilteredIdempotent<T>(x: map<string, T>, filter: T -> bool)
    ensures Filtered(Filtered(x, filter), filter) == Filtered(x, filter)
  {
  }

  /** Filtering never adds entries: the result is a sub-dictionary of `x`. */
  lemma FilteredSubMap<T>(x: map<string, T>, filter: T -> bool)
    ensures Filtered(x, filter).Keys <= x.Keys
    ensures |Filtered(x, filter)| <= |x|
  {
    var r := Filtered(x, filter);
    assert r.Keys <= x.Keys;
    SubsetCardinality(r.Keys, x.Keys);
  }

  lemma SubsetCardinality<K>(a: set<K>, b: set<K>)
    requires a <= b
    ensures |a| <= |b|
  {
    assert b == a + (b - a);
  }

  /**
   * `filterObject(x, filter)`: a new object holding the entries of `x` whose
   * value passes `filter`.
   */
  method FilterObject<T>(x: map<string, T>, filter: T -> bool) returns (ret: map<string, T>)
    ensures ret == Filtered(x, filter)
  {
    ret := map[];
    var unvisited := x.Keys;
    while unvisited != {}
      invariant unvisited <= x.Keys
      invariant forall k :: k in ret <==> k in x && k !in unvisited && filter(x[k])
      invariant forall k :: k in ret ==> ret[k] == x[k]
      decreases unvisited
    {
      var k :| k in unvisited;
      if filter(x[k]) {
        ret := ret[k := x[k]];
      }
      unvisited := unvisited - {k};
    }
  }

  /** The filter of `filterPlugins`: `!v.disabled && !v.development`. */
  predicate Enabled(v: Plugin) {
    v.disabled != Some(true) && v.development != Some(true)
  }

  /**
   * `filterPlugins(plugins)`: every registry keeps exactly its plugins that
   * are neither disabled nor in development.
   */
  method FilterPlugins(plugins: Plugins) returns (r: Plugins)
    ensures r.recordingViews == Filtered(plugins.recordingViews, Enabled)
    ensures r.sortingViews == Filtered(plugins.sortingViews, Enabled)
    ensures r.sortingUnitViews == Filtered(plugins.sortingUnitViews, Enabled)
    ensures r.sortingUnitMetrics == Filtered(plugins.sortingUnitMetrics, Enabled)
  {
    var recordingViews := FilterObject(plugins.recordingViews, Enabled);
    var sortingViews := FilterObject(plugins.sortingViews, Enabled);
    var sortingUnitViews := FilterObject(plugins.sortingUnitViews, Enabled);
    var sortingUnitMetrics := FilterObject(plugins.sortingUnitMetrics, Enabled);
    r := Plugins(recordingViews, sortingViews, sortingUnitViews, sortingUnitMetrics);
  }

  /**
   * After `filterPlugins`, no registry holds a disabled or development
   * plugin, and a plugin that is neither is still registered under its key.
   */
  lemma FilteredPluginsEnabled(x: map<string, Plugin>, k: string)
    requires k in x
    ensures k in Filtered(x, Enabled) <==> x[k].disabled != Some(true) && x[k].development != Some(true)
  {
  }
}

=== FILE: selection.dfy ===
/**
 * The recording-selection and sorting-selection reducers of
 * `src/extensions/extensionInterface.ts`: what a view has selected (electrodes,
 * units, a time point, a time range, an amplitude scale) and the animation
 * that moves the current time point forward with the wall clock.
 *
 * The clock (`Number(new Date())`) is the parameter `now`, in milliseconds;
 * the source reads it up to three times in one step, the model reads it once.
 * Numbers the source stores as JavaScript floats are `real`; `x || y` on a
 * number treats `0` as absent.
 */
module Selection {
  import opened JsValues
  import opened Seqs

  type UnitId = int

  datatype TimeRange = TimeRange(min: real, max: real)

  datatype Animation = Animation(
    lastUpdateTimestamp: int,
    currentTimepointVelocity: real  // time points per second
  )

  datatype RecordingSelection = RecordingSelection(
    selectedElectrodeIds: Option<seq<int>>,
    currentTimepoint: Option<real>,
    timeRange: Nullable<TimeRange>,
    ampScaleFactor: Option<real>,
    animation: Option<Animation>
  )

  /** A selection with every property absent (`{}`). */
  const EmptyRecordingSelection := RecordingSelection(None, None, Undefined, None, None)

  /**
   * `SortingSelection extends RecordingSelection`: the recording part plus the
   * selected and the visible units (`visibleUnitIds: null` means all).
   */
  datatype SortingSelection = SortingSelection(
    recording: RecordingSelection,
    selectedUnitIds: Option<seq<UnitId>>,
    visibleUnitIds: Nullable<seq<UnitId>>
  )

  datatype RecordingSelectionAction =
    | SetRecordingSelection(recordingSelection: RecordingSelection)
    | SetSelectedElectrodeIds(selectedElectrodeIds: seq<int>)
    | SetCurrentTimepoint(currentTimepoint: Option<real>)  // `None` is `null`
    | SetTimeRange(timeRange: Nullable<TimeRange>)
    | SetAmpScaleFactor(ampScaleFactor: real)
    | ScaleAmpScaleFactor(multiplier: real)
    | SetCurrentTimepointVelocity(velocity: real)
    | AnimateRecording

  datatype SortingSelectionAction =
    | SetSelection(selection: SortingSelection)
    | SetSelectedUnitIds(selectedUnitIds: seq<UnitId>)
    | SetVisibleUnitIds(visibleUnitIds: Nullable<seq<UnitId>>)
    | UnitClicked(unitId: UnitId, ctrlKey: Option<bool>, shiftKey: Option<bool>)
    | RecordingAction(action: RecordingSelectionAction)

  /** `x || fallback` for a number: `0` counts as absent. */
  function OrNumber(x: Option<real>, fallback: real): (r: real)
    ensures x.Some? && x.value != 0.0 ==> r == x.value
    ensures x.None? || x.value == 0.0 ==> r == fallback
  {
    if x.Some? && x.value != 0.0 then x.value else fallback
  }

  /** `Math.round(x)`: the nearest integer, halves rounded up. */
  function Round(x: real): (n: int)
    ensures x - 0.5 < n as real <= x + 0.5
  {
    (x + 0.5).Floor
  }

  /** Rounding an integer gives the integer itself. */
  lemma RoundInteger(k: int)
    ensures Round(k as real) == k
  {
  }

  /** The time of the last animation step, `animation?.lastUpdateTimestamp || now`. */
  function LastUpdate(state: RecordingSelection, now: int): int {
    match state.animation
    case Some(a) => if a.lastUpdateTimestamp != 0 then a.lastUpdateTimestamp else now
    case None => now
  }

  /** `animation?.currentTimepointVelocity || 0`. */
  function Velocity(state: RecordingSelection): real {
    match state.animation
    case Some(a) => a.currentTimepointVelocity
    case None => 0.0
  }

  /**
   * Where the time point would be after the time elapsed since the last step,
   * before rounding: `currentTimepoint + velocity * (elapsed / 1000)`.
   */
  function Target(state: RecordingSelection, now: int): real
    requires state.currentTimepoint.Some?
  {
    state.currentTimepoint.value + Velocity(state) * ((now - LastUpdate(state, now)) as real / 1000.0)
  }

  /**
   * Whether an `AnimateRecording` step at time `now` moves the time point:
   * time has passed since the last step, the velocity is non-zero and there
   * is a current time point.
   */
  predicate Advances(state: RecordingSelection, now: int) {
    now - LastUpdate(state, now) != 0 && Velocity(state) != 0.0 && state.currentTimepoint.Some?
  }

  /**
   * The `AnimateRecording` step (lines 322-350): the time point moves by the
   * velocity times the elapsed seconds, rounded, and the step's time is
   * recorded; when it does not advance, the state is returned as it was and
   * the timestamp is not moved.
   */
  function Animate(state: RecordingSelection, now: int): (r: RecordingSelection)
    ensures Advances(state, now) ==>
      r.currentTimepoint == Some(Round(Target(state, now)) as real)
    ensures Advances(state, now) ==>
      r.animation == Some(Animation(now, Velocity(state)))
    ensures Advances(state, now) ==>
      r.selectedElectrodeIds == state.selectedElectrodeIds && r.timeRange == state.timeRange &&
      r.ampScaleFactor == state.ampScaleFactor
    ensures !Advances(state, now) ==> r == state
  {
    var lastUpdate := LastUpdate(state, now);
    var elapsed := now - lastUpdate;
    if elapsed != 0 then
      var velocity := Velocity(state);
      if velocity != 0.0 && state.currentTimepoint.Some? then
        var tp := Round(Target(state, now)) as real;
        var state2 := state.(currentTimepoint := Some(tp));
        match state2.animation
        case Some(a) => state2.(animation := Some(a.(lastUpdateTimestamp := now)))
        case None => state2.(animation := Some(Animation(now, 0.0)))
      else state
    else state
  }

  /** `recordingSelectionReducer` (lines 278-353). */
  function RecordingSelectionReducer(state: RecordingSelection, action: RecordingSelectionAction, now: int)
    : (r: RecordingSelection)
    ensures action.SetRecordingSelection? ==> r == action.recordingSelection
    ensures action.SetSelectedElectrodeIds? ==>
      r == state.(selectedElectrodeIds := Some(action.selectedElectrodeIds))
    ensures action.SetCurrentTimepoint? ==>
      r == state.(currentTimepoint := r.currentTimepoint) &&
      (r.currentTimepoint.Some? <==> action.currentTimepoint.Some? && action.currentTimepoint.value != 0.0) &&
      (r.currentTimepoint.Some? ==> r.currentTimepoint == action.currentTimepoint)
    ensures action.SetTimeRange? ==> r == state.(timeRange := action.timeRange)
    ensures action.SetAmpScaleFactor? ==> r == state.(ampScaleFactor := Some(action.ampScaleFactor))
    ensures action.ScaleAmpScaleFactor? ==>
      r == state.(ampScaleFactor := Some(OrNumber(state.ampScaleFactor, 1.0) * action.multiplier))
    ensures action.SetCurrentTimepointVelocity? ==>
      r == state.(animation := Some(Animation(now, action.velocity)))
    ensures action.AnimateRecording? ==> r == Animate(state, now)
  {
    match action
    case SetRecordingSelection(s) => s
    case SetSelectedElectrodeIds(ids) => state.(selectedElectrodeIds := Some(ids))
    case SetCurrentTimepoint(t) =>
      state.(currentTimepoint := if t.Some? && t.value != 0.0 then t else None)
    case SetTimeRange(tr) => state.(timeRange := tr)
    case SetAmpScaleFactor(f) => state.(ampScaleFactor := Some(f))
    case ScaleAmpScaleFactor(_) =>
      state.(ampScaleFactor := Some(OrNumber(state.ampScaleFactor, 1.0) * action.multiplier))
    case SetCurrentTimepointVelocity(v) =>
      state.(animation := Some(Animation(now, v)))
    case AnimateRecording => Animate(state, now)
  }

  /** `uid => uid !== unitId`. */
  function Other(unitId: UnitId): UnitId -> bool {
    uid => uid != unitId
  }

  /** `unitClickedReducer` (lines 387-410). */
  function UnitClickedReducer(state: SortingSelection, unitId: UnitId, ctrlKey: Option<bool>)
    : (r: SortingSelection)
    ensures r.recording == state.recording && r.visibleUnitIds == state.visibleUnitIds
    ensures r.selectedUnitIds.Some?
    ensures ctrlKey == Some(true) ==>
      (unitId in r.selectedUnitIds.value <==> unitId !in state.selectedUnitIds.GetOr([]))
    ensures ctrlKey == Some(true) ==>
      forall u :: u != unitId ==> (u in r.selectedUnitIds.value <==> u in state.selectedUnitIds.GetOr([]))
    ensures ctrlKey != Some(true) ==> r.selectedUnitIds == Some([unitId])
  {
    var selected := state.selectedUnitIds.GetOr([]);
    if ctrlKey == Some(true) then
      if unitId in selected then
        state.(selectedUnitIds := Some(Filter(selected, Other(unitId))))
      else
        state.(selectedUnitIds := Some(selected + [unitId]))
    else
      state.(selectedUnitIds := Some([unitId]))
  }

  /**
   * The recording reducer applied to a sorting selection (line 432): the
   * object spreads keep the unit fields, except `SetRecordingSelection`,
   * which returns a copy of the new recording selection alone.
   */
  function DelegateToRecording(state: SortingSelection, action: RecordingSelectionAction, now: int)
    : (r: SortingSelection)
    ensures r.recording == RecordingSelectionReducer(state.recording, action, now)
    ensures action.SetRecordingSelection? ==> r.selectedUnitIds.None? && r.visibleUnitIds.Undefined?
    ensures !action.SetRecordingSelection? ==>
      r.selectedUnitIds == state.selectedUnitIds && r.visibleUnitIds == state.visibleUnitIds
  {
    if action.SetRecordingSelection? then
      SortingSelection(action.recordingSelection, None, Undefined)
    else
      state.(recording := RecordingSelectionReducer(state.recording, action, now))
  }

  /** `sortingSelectionReducer` (lines 412-434). */
  function SortingSelectionReducer(state: SortingSelection, action: SortingSelectionAction, now: int)
    : (r: SortingSelection)
    ensures action.SetSelection? ==> r == action.selection
    ensures action.SetSelectedUnitIds? ==> r == state.(selectedUnitIds := Some(action.selectedUnitIds))
    ensures action.SetVisibleUnitIds? ==> r == state.(visibleUnitIds := action.visibleUnitIds)
    ensures action.UnitClicked? ==> r == UnitClickedReducer(state, action.unitId, action.ctrlKey)
    ensures action.RecordingAction? ==> r == DelegateToRecording(state, action.action, now)
  {
    match action
    case SetSelection(s) => s
    case SetSelectedUnitIds(ids) => state.(selectedUnitIds := Some(ids))
    case SetVisibleUnitIds(v) => state.(visibleUnitIds := v)
    case UnitClicked(u, ctrl, _) => UnitClickedReducer(state, u, ctrl)
    case RecordingAction(a) => DelegateToRecording(state, a, now)
  }

  /**
   * A recording action sent to the sorting reducer changes the recording part
   * exactly as the recording reducer would.
   */
  lemma SortingReducerDelegates(state: SortingSelection, action: RecordingSelectionAction, now: int)
    ensures SortingSelectionReducer(state, RecordingAction(action), now).recording ==
            RecordingSelectionReducer(state.recording, action, now)
  {
  }

  /**
   * `SetRecordingSelection` routed through the sorting reducer forgets the
   * selected units, even when the new recording selection is the current one.
   */
  lemma SetRecordingSelectionDropsUnits(state: SortingSelection, now: int)
    ensures SortingSelectionReducer(state, RecordingAction(SetRecordingSelection(state.recording)), now)
            == SortingSelection(state.recording, None, Undefined)
  {
  }

  /** Setting the current time point to `0` makes it undefined. */
  lemma ZeroTimepointIsUndefined(state: RecordingSelection, now: int)
    ensures RecordingSelectionReducer(state, SetCurrentTimepoint(Some(0.0)), now).currentTimepoint.None?
  {
  }

  /**
   * Two ctrl-clicks on a unit that is not selected give back the selection
   * list the view started with.
   */
  lemma CtrlClickTwice(state: SortingSelection, unitId: UnitId)
    requires state.selectedUnitIds.Some? && unitId !in state.selectedUnitIds.value
    ensures UnitClickedReducer(UnitClickedReducer(state, unitId, Some(true)), unitId, Some(true)) == state
  {
    var selected := state.selectedUnitIds.value;
    var p := Other(unitId);
    FilterAppend(selected, [unitId], p);
    FilterAll(selected, p);
    assert Filter([unitId], p) == [];
    assert Filter(selected + [unitId], p) == selected + [];
    assert selected + [] == selected;
    var once := UnitClickedReducer(state, unitId, Some(true));
    assert once == state.(selectedUnitIds := Some(selected + [unitId]));
    assert unitId in selected + [unitId];
    assert UnitClickedReducer(once, unitId, Some(true)) == state.(selectedUnitIds := Some(Filter(selected + [unitId], p)));
  }

  /**
   * A second `AnimateRecording` at the same instant changes nothing: the
   * first step recorded `now`, so no time has elapsed.
   */
  lemma AnimateSameInstant(state: RecordingSelection, now: int)
    ensures Animate(Animate(state, now), now) == Animate(state, now)
  {
  }

  /**
   * One animation step lands within half a time point of the exact position
   * (`currentTimepoint` plus the velocity times the elapsed seconds): the only
   * error is the rounding.
   */
  lemma AnimateWithinHalf(state: RecordingSelection, now: int)
    requires Advances(state, now)
    ensures Target(state, now) - 0.5 < Animate(state, now).currentTimepoint.value <= Target(state, now) + 0.5
  {
  }

  /** Ten time points per second for half a second from time point 100 reaches 105. */
  lemma AnimateExample()
    ensures var state := EmptyRecordingSelection.(currentTimepoint := Some(100.0),
                                                   animation := Some(Animation(1000, 10.0)));
            Animate(state, 1500) == state.(currentTimepoint := Some(105.0),
                                           animation := Some(Animation(1500, 10.0)))
  {
    var state := EmptyRecordingSelection.(currentTimepoint := Some(100.0),
                                           animation := Some(Animation(1000, 10.0)));
    assert Advances(state, 1500);
    assert 100.0 + 10.0 * ((1500 - 1000) as real / 1000.0) == 105.0;
    RoundInteger(105);
  }
}

=== FILE: seqs.dfy ===
/**
 * The array operations of JavaScript that the modelled code relies on
 * (`filter`, `slice`, `new Set(...)` read back as an array), as functions on
 * sequences.
 */
module Seqs {

  /** `s.filter(p)`: the elements of `s` that satisfy `p`, in their order. */
  function Filter<T(!new)>(s: seq<T>, p: T -> bool): (r: seq<T>)
    ensures |r| <= |s|
    ensures forall x :: x in r <==> x in s && p(x)
  {
    if s == [] then [] else (if p(s[0]) then [s[0]] else []) + Filter(s[1..], p)
  }

  /** Filtering keeps the relative order: it distributes over concatenation. */
  lemma {:induction false} FilterAppend<T(!new)>(a: seq<T>, b: seq<T>, p: T -> bool)
    ensures Filter(a + b, p) == Filter(a, p) + Filter(b, p)
  {
    if a == [] {
      assert a + b == b;
    } else {
      assert (a + b)[1..] == a[1..] + b;
      FilterAppend(a[1..], b, p);
    }
  }

  /** A filter that every element passes returns the sequence itself. */
  lemma {:induction false} FilterAll<T(!new)>(s: seq<T>, p: T -> bool)
    requires forall x :: x in s ==> p(x)
    ensures Filter(s, p) == s
  {
    if s != [] {
      FilterAll(s[1..], p);
    }
  }

  /** `s.filter(p)` keeps exactly as many elements as satisfy `p`. */
  lemma {:induction false} FilterMultiset<T(!new)>(s: seq<T>, p: T -> bool, x: T)
    ensures multiset(Filter(s, p))[x] == if p(x) then multiset(s)[x] else 0
  {
    if s != [] {
      FilterMultiset(s[1..], p, x);
      assert s == [s[0]] + s[1..];
    }
  }

  /** A filter that no element passes returns the empty sequence. */
  lemma {:induction false} FilterNone<T(!new)>(s: seq<T>, p: T -> bool)
    requires forall k :: 0 <= k < |s| ==> !p(s[k])
    ensures Filter(s, p) == []
  {
    if s != [] {
      FilterNone(s[1..], p);
    }
  }

  /** The first element that passes a filter is the first element of `s` satisfying `p`. */
  lemma {:induction false} FilterFirst<T(!new)>(s: seq<T>, p: T -> bool)
    requires Filter(s, p) != []
    ensures exists k :: 0 <= k < |s| && s[k] == Filter(s, p)[0] && p(s[k]) &&
                        forall k' :: 0 <= k' < k ==> !p(s[k'])
  {
    if !p(s[0]) {
      FilterFirst(s[1..], p);
      var k :| 0 <= k < |s[1..]| && s[1..][k] == Filter(s[1..], p)[0] && p(s[1..][k]) &&
               forall k' :: 0 <= k' < k ==> !p(s[1..][k']);
      assert s[k + 1] == Filter(s, p)[0];
      assert forall k' :: 0 <= k' < k + 1 ==> !p(s[k']) by {
        forall k' | 0 <= k' < k + 1 ensures !p(s[k']) {
          if k' > 0 {
            assert s[k'] == s[1..][k' - 1];
          }
        }
      }
    } else {
      assert s[0] == Filter(s, p)[0];
    }
  }

  /** No element occurs twice. */
  ghost predicate NoDuplicates<T(!new)>(s: seq<T>) {
    forall x :: multiset(s)[x] <= 1
  }

  /**
   * `[...new Set(s)]`: the first occurrence of every element of `s`, in the
   * order of first occurrence.
   */
  function Dedupe<T(==,!new)>(s: seq<T>): (r: seq<T>)
    ensures forall x :: x in r <==> x in s
    ensures NoDuplicates(r)
  {
    if s == [] then []
    else
      var r0 := Dedupe(s[..|s| - 1]);
      assert forall x :: x in s <==> x in s[..|s| - 1] || x == s[|s| - 1] by {
        assert s == s[..|s| - 1] + [s[|s| - 1]];
      }
      if s[|s| - 1] in r0 then r0 else r0 + [s[|s| - 1]]
  }

  /**
   * `s.slice(start, end)` for non-negative bounds: both bounds are clamped to
   * the length of `s`.
   */
  function Slice<T>(s: seq<T>, start: nat, end: nat): (r: seq<T>)
    ensures start <= end <= |s| ==> r == s[start..end]
    ensures |r| <= |s|
  {
    var lo := if start < |s| then start else |s|;
    var hi := if end < |s| then end else |s|;
    if lo <= hi then s[lo..hi] else []
  }

  /**
   * The truncation shared by the units table and the individual-units view:
   * when `s` holds more than `limit` elements only its first `limit` are
   * shown and an expand button is offered, otherwise all of `s` is shown.
   */
  function Truncate<T>(s: seq<T>, limit: nat): (r: (seq<T>, bool))
    ensures r.0 <= s
    ensures r.1 <==> |r.0| < |s|
    ensures r.1 <==> |s| > limit
    ensures |r.0| == if |s| > limit then limit else |s|
  {
    if |s| > limit then (s[..limit], true) else (s, false)
  }

  /** `[...Array(n).keys()]`: the indices 0, 1, ..., n - 1. */
  function Range(n: nat): (r: seq<nat>)
    ensures |r| == n
    ensures forall i :: 0 <= i < n ==> r[i] == i
  {
    seq(n, i requires 0 <= i < n => i)
  }
}

=== FILE: strings.dfy ===
/**
 * JavaScript string operations used by the modelled code: the `<` order on
 * strings, `Array.prototype.sort` (whose default comparison converts every
 * element to a string), `toUpperCase`, `startsWith` and `split`.
 */
module Strings {

  /** JavaScript's `a < b` on strings: lexicographic on characters. */
  predicate StrLess(a: string, b: string) {
    if |a| == 0 then |b| > 0
    else |b| > 0 && (a[0] < b[0] || (a[0] == b[0] && StrLess(a[1..], b[1..])))
  }

  lemma {:induction false} StrLessIrreflexive(a: string)
    ensures !StrLess(a, a)
  {
    if |a| > 0 {
      StrLessIrreflexive(a[1..]);
    }
  }

  lemma {:induction false} StrLessTransitive(a: string, b: string, c: string)
    requires StrLess(a, b) && StrLess(b, c)
    ensures StrLess(a, c)
  {
    if |a| > 0 && a[0] == b[0] && b[0] == c[0] {
      StrLessTransitive(a[1..], b[1..], c[1..]);
    }
  }

  /** Two different strings are always ordered one way or the other. */
  lemma {:induction false} StrLessTotal(a: string, b: string)
    requires a != b
    ensures StrLess(a, b) || StrLess(b, a)
  {
    if |a| > 0 && |b| > 0 && a[0] == b[0] {
      assert a == [a[0]] + a[1..] && b == [b[0]] + b[1..];
      StrLessTotal(a[1..], b[1..]);
    }
  }

  /** `s` is in non-decreasing order of `key`. */
  ghost predicate SortedByKey<T>(s: seq<T>, key: T -> string) {
    forall i, j :: 0 <= i < j < |s| ==> !StrLess(key(s[j]), key(s[i]))
  }

  /** Puts `x` after every element of `s` whose key is not greater than its own. */
  function InsertByKey<T>(x: T, s: seq<T>, key: T -> string): (r: seq<T>)
    requires SortedByKey(s, key)
    ensures multiset(r) == multiset(s) + multiset{x}
    ensures SortedByKey(r, key)
  {
    if s == [] then [x]
    else if StrLess(key(x), key(s[0])) then
      InsertFirst(x, s, key);
      [x] + s
    else
      var rest := InsertByKey(x, s[1..], key);
      assert s == [s[0]] + s[1..];
      InsertAfterHead(x, s, rest, key);
      [s[0]] + rest
  }

  lemma InsertFirst<T>(x: T, s: seq<T>, key: T -> string)
    requires SortedByKey(s, key) && s != [] && StrLess(key(x), key(s[0]))
    ensures SortedByKey([x] + s, key)
  {
    var r := [x] + s;
    forall i, j | 0 <= i < j < |r| ensures !StrLess(key(r[j]), key(r[i])) {
      if i == 0 {
        if StrLess(key(r[j]), key(x)) {
          if j == 1 {
            StrLessTransitive(key(x), key(s[0]), key(x));
            StrLessIrreflexive(key(x));
          } else {
            StrLessTransitive(key(s[j - 1]), key(x), key(s[0]));
          }
        }
      }
    }
  }

  lemma InsertAfterHead<T>(x: T, s: seq<T>, rest: seq<T>, key: T -> string)
    requires SortedByKey(s, key) && s != [] && !StrLess(key(x), key(s[0]))
    requires SortedByKey(rest, key)
    requires multiset(rest) == multiset(s[1..]) + multiset{x}
    ensures SortedByKey([s[0]] + rest, key)
  {
    var r := [s[0]] + rest;
    forall i, j | 0 <= i < j < |r| ensures !StrLess(key(r[j]), key(r[i])) {
      if i == 0 {
        var y := r[j];
        assert y in multiset(rest);
        if y != x {
          assert y in multiset(s[1..]);
          var k :| 0 <= k < |s[1..]| && s[1..][k] == y;
          assert s[k + 1] == y;
        }
      }
    }
  }

  /**
   * `s.sort()` with a comparison on string keys: a sorted permutation of `s`.
   */
  function SortByKey<T>(s: seq<T>, key: T -> string): (r: seq<T>)
    ensures multiset(r) == multiset(s)
    ensures SortedByKey(r, key)
  {
    if s == [] then []
    else
      assert s == s[..|s| - 1] + [s[|s| - 1]];
      InsertByKey(s[|s| - 1], SortByKey(s[..|s| - 1], key), key)
  }

  /** The upper-case of an ASCII letter; every other character is kept. */
  function UpperChar(c: char): char {
    if 'a' <= c <= 'z' then (c as int - 32) as char else c
  }

  /** `s.toUpperCase()` on ASCII letters. */
  function Upper(s: string): (r: string)
    ensures |r| == |s|
    ensures forall i :: 0 <= i < |s| ==> r[i] == UpperChar(s[i])
  {
    seq(|s|, i requires 0 <= i < |s| => UpperChar(s[i]))
  }

  /** `s.startsWith(prefix)`. */
  predicate StartsWith(s: string, prefix: string) {
    |prefix| <= |s| && s[..|prefix|] == prefix
  }

  /** `s.split(sep)` for a one-character separator. */
  function Split(s: string, sep: char): (r: seq<string>)
    ensures |r| >= 1
    ensures forall i :: 0 <= i < |r| ==> sep !in r[i]
  {
    if s == [] then [""]
    else
      var rest := Split(s[1..], sep);
      if s[0] == sep then [""] + rest else [[s[0]] + rest[0]] + rest[1..]
  }

  /** `parts.join(sep)`. */
  function Join(parts: seq<string>, sep: char): string
    requires |parts| >= 1
  {
    if |parts| == 1 then parts[0] else parts[0] + [sep] + Join(parts[1..], sep)
  }

  /** Joining the pieces of a split gives back the string. */
  lemma {:induction false} JoinSplit(s: string, sep: char)
    ensures Join(Split(s, sep), sep) == s
  {
    if s != [] {
      var rest := Split(s[1..], sep);
      JoinSplit(s[1..], sep);
      if s[0] != sep {
        var r := Split(s, sep);
        assert r[0] == [s[0]] + rest[0] && r[1..] == rest[1..];
        if |rest| == 1 {
          assert s == [s[0]] + s[1..];
        } else {
          assert Join(rest, sep) == rest[0] + [sep] + Join(rest[1..], sep);
          assert s == [s[0]] + s[1..];
        }
      } else {
        assert s == [s[0]] + s[1..];
      }
    }
  }

  /** Splitting a join of separator-free pieces gives back the pieces. */
  lemma {:induction false} SplitJoin(parts: seq<string>, sep: char)
    requires |parts| >= 1
    requires forall i :: 0 <= i < |parts| ==> sep !in parts[i]
    ensures Split(Join(parts, sep), sep) == parts
  {
    if |parts| == 1 {
      SplitNoSeparator(parts[0], sep);
    } else {
      SplitJoin(parts[1..], sep);
      SplitPrefix(parts[0], Join(parts[1..], sep), sep);
      assert parts == [parts[0]] + parts[1..];
    }
  }

  /** A string without the separator splits into itself alone. */
  lemma {:induction false} SplitNoSeparator(s: string, sep: char)
    requires sep !in s
    ensures Split(s, sep) == [s]
  {
    if s != [] {
      SplitNoSeparator(s[1..], sep);
      assert s == [s[0]] + s[1..];
    }
  }

  /** A separator-free prefix followed by the separator becomes the first piece. */
  lemma {:induction false} SplitPrefix(a: string, b: string, sep: char)
    requires sep !in a
    ensures Split(a + [sep] + b, sep) == [a] + Split(b, sep)
  {
    if a == [] {
      assert a + [sep] + b == [sep] + b;
      assert ([sep] + b)[1..] == b;
    } else {
      assert (a + [sep] + b)[1..] == a[1..] + [sep] + b;
      SplitPrefix(a[1..], b, sep);
      assert a == [a[0]] + a[1..];
    }
  }

  /**
   * The first piece of a split is the longest separator-free prefix: it is
   * the whole string or is followed by the separator.
   */
  lemma {:induction false} SplitFirst(s: string, sep: char)
    ensures Split(s, sep)[0] <= s
    ensures |Split(s, sep)[0]| == |s| || s[|Split(s, sep)[0]|] == sep
  {
    if s != [] && s[0] != sep {
      SplitFirst(s[1..], sep);
      assert s == [s[0]] + s[1..];
    }
  }
}

=== FILE: units.dfy ===
/**
 * The pure parts of the units table (`src/pluginComponents/Units/Units.tsx`):
 * the reducer that records the progress of each metric computation, the
 * list of label options offered for curation, and the truncation of the
 * table to its first 30 units.
 */
module Units {
  import opened JsValues
  import opened Seqs
  import opened Strings

  datatype Status = Waiting | Completed | Executing | Failed  // `Failed` is the status `'error'`

  /**
   * One entry of `MetricDataState`. `data` is `any` in the source: a value of
   * type `D`, where `None` stands for `null` (and for a falsy value).
   */
  datatype MetricEntry<D> = MetricEntry(status: Status, data: Option<D>, error: Option<string>)

  type MetricDataState<D> = map<string, MetricEntry<D>>

  datatype MetricDataAction<D> = MetricDataAction(
    metricName: string,
    status: Status,
    data: Option<D>,
    error: Option<string>
  )

  /** `error || null` for an optional string: the empty string is falsy. */
  function StringOrNull(s: Option<string>): (r: Option<string>)
    ensures r.Some? <==> s.Some? && s.value != ""
    ensures r.Some? ==> r == s
  {
    if s.Some? && s.value != "" then s else None
  }

  /** An entry is done once its status is `'completed'`. */
  predicate IsCompleted<D>(state: MetricDataState<D>, metricName: string) {
    metricName in state && state[metricName].status == Completed
  }

  /**
   * The invariant the reducer keeps: data is stored only for a completed
   * metric, an error message only for a failed one.
   */
  predicate WellFormed<D>(state: MetricDataState<D>) {
    forall k :: k in state ==>
      (state[k].data.Some? ==> state[k].status == Completed) &&
      (state[k].error.Some? ==> state[k].status == Failed)
  }

  /**
   * `updateMetricData` (lines 40-54): a completed metric is never updated
   * again; otherwise the entry of `metricName` is replaced, keeping the data
   * only when the new status is completed and the error only when it is
   * `'error'`, and no other entry changes.
   */
  function UpdateMetricData<D>(state: MetricDataState<D>, action: MetricDataAction<D>)
    : (r: MetricDataState<D>)
    ensures IsCompleted(state, action.metricName) ==> r == state
    ensures !IsCompleted(state, action.metricName) ==>
      action.metricName in r && r[action.metricName].status == action.status
    ensures !IsCompleted(state, action.metricName) ==>
      (r[action.metricName].data.Some? <==> action.status == Completed && action.data.Some?) &&
      (r[action.metricName].data.Some? ==> r[action.metricName].data == action.data)
    ensures !IsCompleted(state, action.metricName) ==>
      r[action.metricName].error == if action.status == Failed then StringOrNull(action.error) else None
    ensures forall k :: k != action.metricName ==> (k in r <==> k in state)
    ensures forall k :: k != action.metricName && k in r ==> r[k] == state[k]
  {
    var name := action.metricName;
    if name in state && state[name].status == Completed then
      state
    else
      state[name := MetricEntry(
        action.status,
        if action.status == Completed then action.data else None,
        if action.status == Failed then StringOrNull(action.error) else None)]
  }

  /** Every update keeps the data/status and error/status invariant. */
  lemma UpdateKeepsWellFormed<D>(state: MetricDataState<D>, action: MetricDataAction<D>)
    requires WellFormed(state)
    ensures WellFormed(UpdateMetricData(state, action))
  {
  }

  /** The state after a sequence of actions, applied in order. */
  function UpdateAll<D>(state: MetricDataState<D>, actions: seq<MetricDataAction<D>>)
    : MetricDataState<D>
    decreases |actions|
  {
    if actions == [] then state else UpdateAll(UpdateMetricData(state, actions[0]), actions[1..])
  }

  /**
   * A completed metric stays exactly as it was, whatever actions follow.
   */
  lemma {:induction false} CompletedIsFinal<D>(
    state: MetricDataState<D>, actions: seq<MetricDataAction<D>>, metricName: string)
    requires IsCompleted(state, metricName)
    ensures IsCompleted(UpdateAll(state, actions), metricName)
    ensures UpdateAll(state, actions)[metricName] == state[metricName]
    decreases |actions|
  {
    if actions != [] {
      CompletedIsFinal(UpdateMetricData(state, actions[0]), actions[1..], metricName);
    }
  }

  /** Every state reached from the empty state keeps the invariant. */
  lemma {:induction false} UpdateAllWellFormed<D>(state: MetricDataState<D>, actions: seq<MetricDataAction<D>>)
    requires WellFormed(state)
    ensures WellFormed(UpdateAll(state, actions))
    decreases |actions|
  {
    if actions != [] {
      UpdateKeepsWellFormed(state, actions[0]);
      UpdateAllWellFormed(UpdateMetricData(state, actions[0]), actions[1..]);
    }
  }

  /** `defaultLabelOptions` (line 12). */
  const DefaultLabelOptions: seq<string> := ["noise", "MUA", "artifact", "accept", "reject"]

  /**
   * One entry of `sorting.unitCuration`: the unit's key and its optional
   * `labels`. The entries are given in `Object.keys` order.
   */
  datatype UnitCurationEntry = UnitCurationEntry(unitId: string, labels: Option<seq<string>>)

  /** `l` is one of the unit's labels. */
  predicate HasLabel(entry: UnitCurationEntry, l: string) {
    l in entry.labels.GetOr([])
  }

  /**
   * The `reduce` of lines 79-84: the labels of every curated unit
   * concatenated, `[]` standing in for a missing `labels`.
   */
  function AllLabels(entries: seq<UnitCurationEntry>): (r: seq<string>)
    ensures forall l :: l in r <==> exists i :: 0 <= i < |entries| && HasLabel(entries[i], l)
  {
    if entries == [] then []
    else
      var rest := AllLabels(entries[1..]);
      var r := entries[0].labels.GetOr([]) + rest;
      assert forall l :: l in r <==> exists i :: 0 <= i < |entries| && HasLabel(entries[i], l) by {
        forall l ensures l in r <==> exists i :: 0 <= i < |entries| && HasLabel(entries[i], l) {
          if l in rest {
            var i :| 0 <= i < |entries[1..]| && HasLabel(entries[1..][i], l);
            assert entries[i + 1] == entries[1..][i];
          }
          if exists i :: 0 <= i < |entries| && HasLabel(entries[i], l) {
            var i :| 0 <= i < |entries| && HasLabel(entries[i], l);
            if i > 0 {
              assert entries[1..][i - 1] == entries[i];
            }
          }
        }
      }
      r
  }

  /**
   * The comparison of lines 86-96. Line 94 tests `b > a`, the same as line
   * 93's `a < b`, so it never returns 1: two labels equal up to case compare
   * as -1 or 0.
   */
  function LabelCompare(a: string, b: string): (c: int)
    ensures StrLess(Upper(a), Upper(b)) ==> c == -1
    ensures StrLess(Upper(b), Upper(a)) && !StrLess(Upper(a), Upper(b)) ==> c == 1
    ensures Upper(a) == Upper(b) ==> c == (if StrLess(a, b) then -1 else 0)
  {
    var aUpper := Upper(a);
    var bUpper := Upper(b);
    StrLessIrreflexive(aUpper);
    if StrLess(aUpper, bUpper) then -1
    else if StrLess(bUpper, aUpper) then 1
    else if StrLess(a, b) then -1
    else if StrLess(a, b) then 1
    else 0
  }

  /**
   * Labels that differ after upper-casing are ordered by their upper-cased
   * forms, in both directions, and the comparison never ranks one label above
   * another that is equal up to case.
   */
  lemma LabelCompareOrder(a: string, b: string)
    ensures Upper(a) != Upper(b) ==> (LabelCompare(a, b) == -1 <==> StrLess(Upper(a), Upper(b)))
    ensures Upper(a) != Upper(b) ==> (LabelCompare(a, b) == 1 <==> StrLess(Upper(b), Upper(a)))
    ensures Upper(a) == Upper(b) ==> LabelCompare(a, b) != 1
  {
    if Upper(a) != Upper(b) {
      StrLessTotal(Upper(a), Upper(b));
      if StrLess(Upper(a), Upper(b)) {
        if StrLess(Upper(b), Upper(a)) {
          StrLessTransitive(Upper(a), Upper(b), Upper(a));
          StrLessIrreflexive(Upper(a));
        }
      }
    }
  }

  /**
   * `labelOptions` (lines 77-96): the default labels followed by every
   * curated unit's labels, each kept once, sorted by upper case.
   */
  function LabelOptions(unitCuration: Option<seq<UnitCurationEntry>>): (r: seq<string>)
    ensures forall l :: l in r <==>
      l in DefaultLabelOptions ||
      exists i :: 0 <= i < |unitCuration.GetOr([])| && HasLabel(unitCuration.GetOr([])[i], l)
    ensures NoDuplicates(r)
    ensures SortedByKey(r, Upper)
  {
    var entries := unitCuration.GetOr([]);
    var all := Dedupe(DefaultLabelOptions + AllLabels(entries));
    var r := SortByKey(all, Upper);
    assert forall l :: l in r <==> l in all by {
      forall l ensures l in r <==> l in all {
        assert l in r <==> l in multiset(r);
        assert l in all <==> l in multiset(all);
      }
    }
    assert forall l :: l in all <==> l in DefaultLabelOptions || l in AllLabels(entries);
    r
  }

  /**
   * The options come out in the order `labelCompare` would give them: no
   * earlier option compares as greater than a later one.
   */
  lemma LabelOptionsCompareOrder(unitCuration: Option<seq<UnitCurationEntry>>)
    ensures var r := LabelOptions(unitCuration);
      forall i, j :: 0 <= i < j < |r| ==> LabelCompare(r[i], r[j]) != 1
  {
    var r := LabelOptions(unitCuration);
    forall i, j | 0 <= i < j < |r|
      ensures LabelCompare(r[i], r[j]) != 1
    {
      assert !StrLess(Upper(r[j]), Upper(r[i]));
      LabelCompareOrder(r[i], r[j]);
    }
  }

  /** Every default label is always offered, whatever the curation holds. */
  lemma DefaultsOffered(unitCuration: Option<seq<UnitCurationEntry>>)
    ensures forall l :: l in DefaultLabelOptions ==> l in LabelOptions(unitCuration)
  {
  }

  /**
   * The rows shown by the table (lines 152-157): when the table is not
   * expanded and holds more than 30 units, only the first 30 are shown and
   * the expand button is offered; otherwise all of them, without the button.
   */
  function VisibleUnits(unitIds: seq<int>, expandedTable: bool): (r: (seq<int>, bool))
    ensures r.1 <==> !expandedTable && |unitIds| > 30
    ensures r.0 <= unitIds
    ensures r.1 ==> |r.0| == 30
    ensures !r.1 ==> r.0 == unitIds
  {
    if expandedTable then (unitIds, false) else Truncate(unitIds, 30)
  }
}
